=== FILE: README.md ===
# Onboarding tour: placement, scroll and state logic in Dafny

This project models the decision logic of a React product-tour widget. A tour is a
list of steps. Each step targets a DOM element by selector. The widget spotlights
the target, places an instruction card next to it, and offers Previous / Next /
Finish / Skip controls. State (active tour, step index, visibility) lives in a
shared provider.

The model covers these pure parts:

- **Side cutoff corrector** (`cutoff.dfy`, module `Cutoff`). This is
  `checkSideCutOff`, as re-implemented in the positioning test file. It takes a
  side string, the target's document rectangle and the document extents. When a card
  of an assumed 256 px footprint would be cut off at the given side, the
  corrector swaps it for the opposite vertical side or a plain vertical side.
  The new side is not checked again and may itself be cut off
  (`Cutoff.CorrectionNotStable`). The function is total over arbitrary strings. It
  uses `startsWith`, `includes` and first-occurrence `replace`, which are modelled
  in `strings.dfy`. A structured reading of well-formed sides, `Placement`, comes
  with a reference rule, `Reference`, that uses no string operations.
  `MatchesReference` proves that the string function and the reference agree on
  every well-formed side.
- **Scroll and geometry decisions of the renderer** (`scroll.dfy`, module
  `Scroll`): the document rectangle, the ±20 px viewport tests, the scroll that
  leaves room for the card, the step, out-of-view and resize updates, the spotlight
  rectangle and its defaults, and the scroll to the top when the tour closes.
- **Step controls** (`navigation.dfy`, module `Navigation`): the index guards of
  `nextStep`/`prevStep`. On a step with a route, the index update waits until the
  next target's selector resolves, and the DOM watcher is disconnected in that
  same callback.
- **Tour state machine** (`tour_state.dfy`, module `TourState`): the provider's
  `(tour, step, visible)` state and its `startOnboarding`, `closeOnboarding` and
  `setCurrentStep` transitions, including the delayed variant, plus the
  `useOnboarding` guard.
- **Default card decisions** (`card.dfy`, module `Card`): the field-wise
  label merge, which buttons render, which are disabled or hidden, what they do,
  and the counter. Without a step the card fails, as its first read of the step
  throws.
- **Card mount** (`overlay.dfy`, module `Overlay`): when the overlay mounts the
  default card, and with which step.

`common.dfy` holds `Option`/`Result`; `geometry.dfy` the rectangle types;
`steps.dfy` the step and tour shapes, the tour lookup and the DOM lookup. A
document is modelled as a map from the selectors that currently resolve to their
viewport rectangles.

Inputs that come from the browser are parameters: bounding rectangles, scroll
offsets, `innerHeight`, the intersection signal, whether `router.push` succeeds,
and the documents the watcher sees. Effects are returned values: a scroll target
offset, a new pointer rectangle, a new tour state.

Notes on the code:

- The renderer (`src/Onboarding.tsx:380-390`) does not call `checkSideCutOff`.
  It hands the step's side to the floating-position `flip` middleware. The
  repository's only copy of `checkSideCutOff` is the re-implementation in
  `src/__tests__/positioning.test.ts`, and that copy is what is modelled.
- `getElementPosition` uses `window.scrollY || documentElement.scrollTop`. A zero
  window offset therefore falls back to the document element's offset
  (`Scroll.ScrollTop`). `scrollToElementWithCard` uses `window.scrollY` directly.
- `scrollToElement` checks only the target's top against the viewport, not its
  bottom (`Scroll.TopInViewport`).
- `observeRef` (`src/Onboarding.tsx:61-62`) is handed to `useInView` but is
  never attached to an element of the rendered markup. The intersection signal
  therefore presumably never turns true. Whether it starts out false is a
  default of the animation library, which is not in this repository. The model
  keeps the signal as a parameter. `Scroll.NeverInViewAlwaysScrolls` states what
  the effects do when it is constantly false: the ±20 px test no longer gates
  any scroll.
- `scrollToElementWithCard` skips the scroll only for `top > 417`, strictly.
  The scroll it issues puts the target's top at exactly 417, so every later
  trigger issues the same scroll again (`Scroll.RescrollIsStable`).
- The corrector is not idempotent. Correcting an already corrected side can flip
  it back (`Cutoff.CorrectionNotStable`). Only determinism holds.

## Model

| member | source | states |
|---|---|---|
| Strings.IndexOf | src/__tests__/positioning.test.ts:47-54 | `includes`: the result is an index where the pattern occurs with no earlier occurrence, or none when it occurs nowhere |
| Strings.IncludesIffOccurs | src/__tests__/positioning.test.ts:47-54 | `includes` holds exactly when the pattern occurs at some index |
| Strings.ReplaceFirst | src/__tests__/positioning.test.ts:51-61 | `replace` with a string pattern: unchanged when the pattern is absent; otherwise the text before the first occurrence is kept, the occurrence becomes the replacement, and the text after it is kept |
| Strings.ReplaceLeading | src/__tests__/positioning.test.ts:51 | replacing a leading pattern keeps the rest of the string after it |
| Cutoff.CheckSideCutOff | src/__tests__/positioning.test.ts:19-68 | an empty side, a missing viewport or a missing target rectangle returns the side unchanged |
| Cutoff.ChangedIffOverflow | src/__tests__/positioning.test.ts:32-67 | for a non-empty side with both inputs present, the side changes if and only if horizontal removal, the top branch or the bottom branch fires |
| Cutoff.TopPrefixKeepsSide | src/__tests__/positioning.test.ts:36-44 | horizontal removal never applies to a side starting with `top` |
| Cutoff.TopFlipKeepsSuffix | src/__tests__/positioning.test.ts:47-52 | a side starting with `top` whose card would pass the top edge becomes `bottom` followed by the same suffix |
| Cutoff.BottomFlipKeepsSuffix | src/__tests__/positioning.test.ts:53-62 | a side starting with `bottom` (without `top`) whose card would pass the bottom edge becomes `top` followed by the same suffix |
| Cutoff.HorizontalRemovalCollapses | src/__tests__/positioning.test.ts:36-65 | after horizontal removal the result is plain `bottom` (top branch fires), plain `top` (bottom branch fires), or `bottom`/`top` depending on whether `y < 256` |
| Cutoff.Reference | src/__tests__/positioning.test.ts:32-67 | the structured rule keeps placements well-formed, changes one only when an overflow condition holds, collapses a cut horizontal primary to a plain vertical side, and never introduces a horizontal direction |
| Cutoff.MatchesReference | src/__tests__/positioning.test.ts:19-68 | on every well-formed side the string corrector equals the rendered result of the structured reference rule |
| Cutoff.RenderFacts | src/__tests__/positioning.test.ts:37-61 | on rendered sides, `startsWith('right'/'left')` reads the primary, `includes('top'/'bottom')` reads either component, and `replace` flips exactly that component |
| Cutoff.RightEdgeIsStrict | src/__tests__/positioning.test.ts:328-338 | `x+width+256 == scrollWidth` keeps `right`; one unit more yields `top` or `bottom` |
| Cutoff.LeftEdgeIsStrict | src/__tests__/positioning.test.ts:340-347 | `x == 256` keeps `left`; `x == 255` yields `top` or `bottom` |
| Cutoff.TopEdgeIsStrict | src/__tests__/positioning.test.ts:349-356 | `y == 256` keeps `top`; `y == 255` yields `bottom` |
| Cutoff.BottomEdgeIsStrict | src/__tests__/positioning.test.ts:358-367 | `y+height+256 == scrollHeight` keeps `bottom`; one unit more yields `top` |
| Cutoff.CornerSidesKeepCorner | src/__tests__/positioning.test.ts:36-67 | for every geometry, a `top-` corner becomes the `bottom-` corner exactly when the top edge is passed, and a `bottom-` corner becomes the `top-` corner exactly when the bottom edge is passed; horizontal overflow never changes them |
| Cutoff.NoCutoffResults | src/__tests__/positioning.test.ts:77-121 | the eight rows where the card fits keep their side |
| Cutoff.RightEdgeResults | src/__tests__/positioning.test.ts:123-151 | the four right-edge rows: `right`, `right-top` and `right-bottom` collapse to `top`, or to `bottom` near the top |
| Cutoff.LeftEdgeResults | src/__tests__/positioning.test.ts:153-186 | the five left-edge rows, including `left` kept at `x == 256` |
| Cutoff.TopEdgeResults | src/__tests__/positioning.test.ts:188-213 | the four top-edge rows: `top` flips to `bottom` keeping the corner, and is kept at `y == 256` |
| Cutoff.BottomEdgeResults | src/__tests__/positioning.test.ts:215-242 | the four bottom-edge rows: `bottom` flips to `top` keeping the corner, and is kept when the card fits |
| Cutoff.CornerResults | src/__tests__/positioning.test.ts:244-277 | the four corner rows past two edges: the vertical part flips and the corner stays |
| Cutoff.NullHandlingResults | src/__tests__/positioning.test.ts:279-296 | the empty side, the missing viewport and the missing target return the side |
| Cutoff.MobileResults | src/__tests__/positioning.test.ts:298-325 | the three rows for a 375 x 667 document |
| Cutoff.ThresholdResults | src/__tests__/positioning.test.ts:327-367 | the eight boundary rows for the 256 px card size |
| Cutoff.CorrectionNotStable | src/__tests__/positioning.test.ts:47-62 | on a short document `top` corrects to `bottom`, and `bottom` corrects back to `top` |
| Steps.FindTourSteps | src/Onboarding.tsx:51 | the steps of the first tour with the current name, none when no tour has it |
| Steps.StepAt | src/Onboarding.tsx:102-103 | the step at an index exists exactly when the index lies within the list |
| Scroll.ScrollLeft | src/Onboarding.tsx:146 | the horizontal offset is `window.scrollX`, or the document element's `scrollLeft` when that is zero |
| Scroll.ScrollTop | src/Onboarding.tsx:145 | the vertical offset is `window.scrollY`, or the document element's `scrollTop` when that is zero |
| Scroll.DocumentRect | src/Onboarding.tsx:143-153 | `getElementPosition`: width and height kept, `x`/`y` are the client coordinates plus the horizontal/vertical scroll offsets |
| Scroll.DocumentRectRoundTrip | src/Onboarding.tsx:143-153 | the document rectangle is the viewport rectangle shifted by the scroll offsets, size kept: shifting back recovers it |
| Scroll.DocumentRectScrollInvariant | src/Onboarding.tsx:143-153 | the document rectangle does not depend on the scroll offsets: an element at a fixed document position is reported at the same place whatever the scroll |
| Scroll.ScrollToElementWithCard | src/Onboarding.tsx:157-202 | no scroll exactly when `top > 417` and `bottom < innerHeight`; otherwise a non-negative offset that puts the target 417 px below the viewport top, or 0 when that would go above the document |
| Scroll.RescrollIsStable | src/Onboarding.tsx:177-201 | recomputing after the scroll asks for exactly the same offset again: the strict `top > 417` never accepts the position the scroll produces |
| Scroll.StepEffect | src/Onboarding.tsx:206-226 | the pointer updates only for a visible tour whose current target resolves; a scroll happens only then, and only when the target is out of view by the intersection signal or the ±20 px test |
| Scroll.WellPlacedTargetNoScroll | src/Onboarding.tsx:184-195 | a target with room for the card above it and its bottom on screen never causes a scroll |
| Scroll.NeverInViewAlwaysScrolls | src/Onboarding.tsx:61-62 | with the intersection signal constantly false, every step effect that moves the pointer also scrolls to the target, and a remembered target is scrolled to whenever the tour is visible |
| Scroll.OutOfViewScroll | src/Onboarding.tsx:228-232 | a remembered target is scrolled to only while it is out of view and the tour is visible |
| Scroll.ResizePointer | src/Onboarding.tsx:236-256 | no pointer update while the tour is hidden (no listener); while visible, the pointer follows the current target exactly when it resolves |
| Scroll.ResizeAgreesWithStepEffect | src/Onboarding.tsx:206-256 | a resize puts the pointer exactly where the current-step effect puts it |
| Scroll.ScrollToStep | src/Onboarding.tsx:340-355 | after a step change the pointer moves to the resolved target; a scroll is issued only when its top is outside the viewport ±20 px |
| Scroll.InViewportImpliesTopInViewport | src/Onboarding.tsx:116-118 | the top-and-bottom ±20 px test implies the top-only test of `scrollToElement` |
| Scroll.CloseEffect | src/Onboarding.tsx:75-85 | a scroll to the top iff previously visible, now hidden and `scrollToTop` set; the remembered visibility is always refreshed |
| Scroll.ScrollsExactlyOnClose | src/Onboarding.tsx:71-85 | over any sequence of renders, the page scrolls to the top exactly at the visible→hidden transitions with `scrollToTop` set |
| Scroll.PointerPadding | src/Onboarding.tsx:366 | the step's padding when given, else 30 |
| Scroll.PointerRadius | src/Onboarding.tsx:368 | the step's radius when given, else 28 |
| Scroll.PlacementOf | src/Onboarding.tsx:369 | the step's side when given, else `top` |
| Scroll.Spotlight | src/Onboarding.tsx:494-513 | the spotlight is the target grown by the padding in width and height |
| Scroll.SpotlightCentredAndContains | src/Onboarding.tsx:497-500 | the spotlight is centred on the target and contains it when the padding is not negative |
| Navigation.NextStep | src/Onboarding.tsx:260-297 | ignored unless there are steps and `current < length-1`; advances to `current+1` exactly for a valid current step whose route, if any, navigates; routed steps wait for the next step's selector; otherwise a caught failure |
| Navigation.PrevStep | src/Onboarding.tsx:299-336 | ignored unless there are steps and `current > 0`; advances to `current-1` exactly for a valid current step whose route, if any, navigates; routed steps wait for the previous step's selector |
| Navigation.Begin | src/Onboarding.tsx:266-292 | a plain move sets the step at once; a routed move leaves the state unchanged and starts a watcher |
| Navigation.Observe | src/Onboarding.tsx:272-282 | a watcher callback sets the step and disconnects when the target resolves, and changes nothing otherwise |
| Navigation.CloseDoesNotCancelWatcher | src/Onboarding.tsx:272-288 | closing the tour while a routed control waits does not stop the watcher: when the target appears, the step is set and the overlay is shown again with no tour |
| Navigation.DisconnectedIgnores | src/Onboarding.tsx:279-280 | once disconnected, later document changes do nothing |
| Navigation.PendingUntilResolved | src/Onboarding.tsx:284-288 | while the target never resolves, the state is unchanged and the watcher stays connected (no timeout) |
| Navigation.CommitsOnFirstResolution | src/Onboarding.tsx:266-288 | the step is set at the first document where the target resolves, and the watcher is disconnected then |
| Navigation.ControlsKeepIndexInRange | src/Onboarding.tsx:260-336 | from a valid step, next and previous keep the index within `[0, length-1]` whatever the watcher sees |
| TourState.InitialIsClosed | src/OnboardingContext.tsx:54-56 | the initial state has no tour, step 0, hidden |
| TourState.Start | src/OnboardingContext.tsx:75-79 | starting sets the tour, step 0 and visible |
| TourState.Close | src/OnboardingContext.tsx:70-73 | closing hides the overlay and clears the tour, keeping the step |
| TourState.SetCurrentStep | src/OnboardingContext.tsx:58-68 | with no or zero delay: sets the step (no bounds check), shows the overlay, keeps the tour; with a delay: no change now, one timer pending |
| TourState.Fire | src/OnboardingContext.tsx:60-63 | a timer sets its step and shows the overlay, keeping whatever tour is current |
| TourState.DelayedMatchesImmediate | src/OnboardingContext.tsx:59-63 | the delayed variant ends in the state the immediate one produces from the state current when it fires |
| TourState.ReachableConsistent | src/OnboardingContext.tsx:53-79 | along any sequence of calls and timers, an active tour is never hidden |
| TourState.VisibleWithoutTour | src/OnboardingContext.tsx:58-73 | start, close, set step leaves a visible overlay with no tour |
| TourState.UseOnboarding | src/OnboardingContext.tsx:37-43 | fails with the provider error exactly when no provider value is present |
| Card.ResolveAria | src/DefaultCard.tsx:38-50 | each aria label is the caller's value when given, else the default |
| Card.ResolveLabels | src/DefaultCard.tsx:8-51 | each label is the caller's value when given, else the default; no caller labels give the defaults |
| Card.ResolveRoundTrip | src/DefaultCard.tsx:32-51 | labels given in full come back unchanged, and resolving resolved labels again changes nothing |
| Card.SkipButtonAsWritten | src/DefaultCard.tsx:209-216 | the Skip button as written closes the tour |
| Card.SkipButton | src/DefaultCard.tsx:209-216 | the Skip button closes the tour and carries the configured skip aria label |
| Card.SkipAriaLabelDropped | src/DefaultCard.tsx:209-241 | as written, the Skip button never carries the configured aria label; otherwise it equals the corrected button |
| Card.DefaultCard | src/DefaultCard.tsx:22-245 | fails exactly when no step is passed (the first read of `step.title`); otherwise every button follows the step's `showControls`, every button except Skip carries its role's aria label, Skip carries none, and the card carries the card aria label |
| Card.DefaultCardCorrected | src/DefaultCard.tsx:22-216 | the card with the Skip button's aria label applied: fails exactly without a step; otherwise every button carries its role's aria label |
| Card.CorrectedCardDiffersOnlyInSkip | src/DefaultCard.tsx:209-245 | the rendered and corrected cards agree in everything but aria labels, and differ exactly on multi-step cards |
| Card.SingleStepCard | src/DefaultCard.tsx:69-124 | a one-step card renders only Finish, and only when `currentStep+1 == 1`; no Previous, Next, Skip or counter |
| Card.MultiStepCard | src/DefaultCard.tsx:129-216 | one Previous, disabled iff step 0; exactly one of Next/Finish, Finish iff last step; one Skip; counter `currentStep+1`, `of`, `totalSteps` |
| Card.ClosingButtons | src/DefaultCard.tsx:55-66 | Finish and Skip close the tour (hidden, no tour, step kept); only Finish fires confetti; Previous/Next invoke the step controls |
| Card.ButtonStyle | src/DefaultCard.tsx:232-261 | displayed iff `showControls` is true; disabled iff cursor `not-allowed`, with opacity 0.5, else pointer and 1 |
| Card.ControlsShownTogether | src/DefaultCard.tsx:209-261 | every button of the card, Skip included, is shown exactly when the step sets `showControls` |
| Overlay.TotalSteps | src/Onboarding.tsx:545 | the step count handed to the card: the list's length, 0 without a tour |
| Overlay.OverlayCard | src/Onboarding.tsx:463-549 | a card is mounted exactly when a pointer position is known and the tour is visible; it fails exactly when the current step does not exist |
| Overlay.OverlayCardGuarded | src/Onboarding.tsx:463-549 | mounting only for an existing step never fails, and agrees with the code wherever the step exists |
| Overlay.StaleStepCrashes | src/Onboarding.tsx:463-549 | start, close, set a step: the overlay as written fails with the missing-step error, the guarded one renders nothing |
| Overlay.CloseWhilePendingCrashes | src/Onboarding.tsx:272-288 | closing while a routed control waits, then letting the target appear: the overlay as written fails, the guarded one renders nothing |
| Overlay.PastEndCrashes | src/Onboarding.tsx:463-549 | setting a step past the end of an active tour: the overlay as written fails, the guarded one renders nothing |

## Left out

- DOM access and effects: `querySelector`, `getBoundingClientRect`, `window.scrollTo` and resize listeners. Their results are parameters and their effects are returned values.
- The style mutations on target elements (`position`, `zIndex`, `src/Onboarding.tsx:87-100`, `107-110`, `127-138`): these are presentational.
- The first current-step effect (`src/Onboarding.tsx:87-139`). Apart from styling it makes the same decisions as the second one, so `Scroll.StepEffect` models both. Both effects run on the same triggers, so each scroll decision is issued twice, once by each effect; the model returns it once.
- React machinery: hooks, re-render scheduling, Portal and motion animations. `useInView` is a parameter; its initial value and the fact that its ref is never attached are not modelled beyond `Scroll.NeverInViewAlwaysScrolls`.
- The floating-position middleware (`flip`, `shift`, `offset`, `arrow`, `src/Onboarding.tsx:373-390`) and the arrow styles (`394-440`). They belong to an external library or are presentational.
- `router.push` and the watcher's asynchrony. Navigation success and the sequence of observed documents are parameters. Two controls pressed while a watcher is pending would start two watchers; that interleaving is not modelled.
- Error logging (`console.error`). A caught error is the `Failed` outcome, which leaves the state unchanged.
- Timer scheduling. A pending `setTimeout` is a value. When it fires is left to the caller of `TourState.Run`, and JavaScript's handling of negative or `NaN` delays is not modelled.
- Confetti, colours, sizes, padding strings and the card's markup, title, icon and content.
- A custom `CardComponent` (`src/Onboarding.tsx:532-540`) receives the same possibly undefined step. What it does with it is the caller's code, so only the default card is modelled.
- The `closeButton` aria label. It is resolved but no button uses it.
- Coordinates are integers, while the browser reports fractional pixels. Only the spotlight's `pad / 2` uses reals.
- `Strings.ReplaceFirst` does not model the `$` substitution patterns of JavaScript's `replace`, because the corrector only replaces with `top` and `bottom`.
- `OnboardingReact.tsx` is not part of this model. The build output under `dist/` and its card test describe an older interface and are not modelled.

## Findings

| source | as written | input that shows it | evidently intended | confidence | as-written member | corrected member |
|---|---|---|---|---|---|---|
| src/DefaultCard.tsx:209-216 | the Skip button receives its label as `aria-label`, but the button component reads only `ariaLabel` (line 234) and passes that on, so the Skip button has no aria label | any multi-step card, e.g. default labels: the Skip button gets no aria label, while `labels.ariaLabels.skipButton` is `Skip tour` | the Skip button carries `labels.ariaLabels.skipButton`, like every other button | medium, not executed | Card.SkipButtonAsWritten | Card.SkipButton |
| src/Onboarding.tsx:463-549 | the card is mounted whenever a pointer position is known and the tour is visible, with `currentTourSteps?.[currentStep] as Step`; the pointer position is never cleared, and the default card reads `step.title` (src/DefaultCard.tsx:97, 156) | `startOnboarding('a')` with a resolving first target, then `closeOnboarding()`, then `setCurrentStep(0)`: the overlay is visible with no tour, so the step is undefined and the card throws a TypeError; likewise pressing Skip while a routed Next waits for its target, then letting the target appear (`Overlay.CloseWhilePendingCrashes`) | the card is mounted only when the current step exists | medium, not executed | Overlay.OverlayCard | Overlay.OverlayCardGuarded |

=== FILE: card.dfy ===
/** The default card's decisions: resolving its labels against the defaults,
    which buttons it renders, how each is styled, and what the counter says.
    Markup, colours and confetti are outside the model; pressing a button is
    reduced to the control it invokes. */
module Card {
  import opened Common
  import TourState
  import opened Steps

  datatype AriaLabels = AriaLabels(
    closeButton: string, nextButton: string, previousButton: string,
    finishButton: string, skipButton: string, card: string)

  datatype Labels = Labels(next: string, previous: string, finish: string,
                           skip: string, of: string, aria: AriaLabels)

  /** Labels a caller may supply; every field may be left out. */
  datatype UserAriaLabels = UserAriaLabels(
    closeButton: Option<string>, nextButton: Option<string>, previousButton: Option<string>,
    finishButton: Option<string>, skipButton: Option<string>, card: Option<string>)

  datatype UserLabels = UserLabels(next: Option<string>, previous: Option<string>, finish: Option<string>,
                                   skip: Option<string>, of: Option<string>, aria: Option<UserAriaLabels>)

  const DefaultLabels: Labels := Labels("Next", "Previous", "Finish", "Skip Tour", "of",
    AriaLabels("Close tour", "Go to next step", "Go to previous step", "Finish tour", "Skip tour",
               "Onboarding tour card"))

  const NoAriaLabels: UserAriaLabels := UserAriaLabels(None, None, None, None, None, None)

  /** A label given by the caller wins over the default, field by field.
      (An empty string given by the caller is kept: only absence falls back.) */
  predicate LabelResolves(given: Option<string>, default: string, resolved: string)
  {
    resolved == if given.Some? then given.value else default
  }

  function ResolveAria(user: UserAriaLabels): (r: AriaLabels)
    ensures LabelResolves(user.closeButton, DefaultLabels.aria.closeButton, r.closeButton)
    ensures LabelResolves(user.nextButton, DefaultLabels.aria.nextButton, r.nextButton)
    ensures LabelResolves(user.previousButton, DefaultLabels.aria.previousButton, r.previousButton)
    ensures LabelResolves(user.finishButton, DefaultLabels.aria.finishButton, r.finishButton)
    ensures LabelResolves(user.skipButton, DefaultLabels.aria.skipButton, r.skipButton)
    ensures LabelResolves(user.card, DefaultLabels.aria.card, r.card)
  {
    var d := DefaultLabels.aria;
    AriaLabels(user.closeButton.GetOr(d.closeButton), user.nextButton.GetOr(d.nextButton),
               user.previousButton.GetOr(d.previousButton), user.finishButton.GetOr(d.finishButton),
               user.skipButton.GetOr(d.skipButton), user.card.GetOr(d.card))
  }

  /** The card's labels: each field the caller's value when given, else the default. */
  function ResolveLabels(user: Option<UserLabels>): (r: Labels)
    ensures user.None? ==> r == DefaultLabels
    ensures user.Some? ==>
      && LabelResolves(user.value.next, DefaultLabels.next, r.next)
      && LabelResolves(user.value.previous, DefaultLabels.previous, r.previous)
      && LabelResolves(user.value.finish, DefaultLabels.finish, r.finish)
      && LabelResolves(user.value.skip, DefaultLabels.skip, r.skip)
      && LabelResolves(user.value.of, DefaultLabels.of, r.of)
      && r.aria == ResolveAria(user.value.aria.GetOr(NoAriaLabels))
  {
    var u := user.GetOr(UserLabels(None, None, None, None, None, None));
    var d := DefaultLabels;
    Labels(u.next.GetOr(d.next), u.previous.GetOr(d.previous), u.finish.GetOr(d.finish),
           u.skip.GetOr(d.skip), u.of.GetOr(d.of), ResolveAria(u.aria.GetOr(NoAriaLabels)))
  }

  /** Supplying every label replaces every default. */
  function Full(l: Labels): UserLabels
  {
    UserLabels(Some(l.next), Some(l.previous), Some(l.finish), Some(l.skip), Some(l.of),
      Some(UserAriaLabels(Some(l.aria.closeButton), Some(l.aria.nextButton), Some(l.aria.previousButton),
                          Some(l.aria.finishButton), Some(l.aria.skipButton), Some(l.aria.card))))
  }

  /** Resolving is a retraction: labels given in full come back unchanged, and
      resolving the resolved labels again changes nothing. */
  lemma ResolveRoundTrip(l: Labels, user: Option<UserLabels>)
    ensures ResolveLabels(Some(Full(l))) == l
    ensures ResolveLabels(Some(Full(ResolveLabels(user)))) == ResolveLabels(user)
  {
  }

  // ---------------------------------------------------------------------------
  // Buttons

  datatype Role = Previous | Next | Finish | Skip

  /** What pressing a button does. */
  datatype Action = GoPrevious | GoNext | CloseOnboarding | CloseWithConfetti

  datatype Button = Button(role: Role, text: string, ariaLabel: Option<string>,
                           disabled: bool, showControls: Option<bool>, action: Action)

  /** `{currentStep + 1} {labels.of} {totalSteps}`. */
  datatype Counter = Counter(position: int, of: string, total: int)

  datatype CardView = CardView(ariaLabel: string, buttons: seq<Button>, counter: Option<Counter>)

  /** The aria label the card intends for each role. */
  function AriaFor(l: Labels, role: Role): string
  {
    match role
    case Previous => l.aria.previousButton
    case Next => l.aria.nextButton
    case Finish => l.aria.finishButton
    case Skip => l.aria.skipButton
  }

  function FinishButton(l: Labels, showControls: Option<bool>): Button
  {
    Button(Finish, l.finish, Some(l.aria.finishButton), false, showControls, CloseWithConfetti)
  }

  /** The skip button as written: its label is passed as `aria-label`, a prop
      the button component does not read, so the button gets no aria label. */
  function SkipButtonAsWritten(l: Labels, showControls: Option<bool>): (b: Button)
    ensures b.role == Skip && b.action == CloseOnboarding
  {
    Button(Skip, l.skip, None, false, showControls, CloseOnboarding)
  }

  /** The skip button with its configured aria label applied, as for every other button. */
  function SkipButton(l: Labels, showControls: Option<bool>): (b: Button)
    ensures b.role == Skip && b.action == CloseOnboarding
    ensures b.ariaLabel == Some(AriaFor(l, Skip))
  {
    Button(Skip, l.skip, Some(l.aria.skipButton), false, showControls, CloseOnboarding)
  }

  /** The configured skip aria label is dropped for every choice of labels. */
  lemma SkipAriaLabelDropped(l: Labels, showControls: Option<bool>)
    ensures SkipButtonAsWritten(l, showControls).ariaLabel != Some(AriaFor(l, Skip))
    ensures SkipButton(l, showControls).ariaLabel == Some(AriaFor(l, Skip))
    ensures SkipButtonAsWritten(l, showControls) == SkipButton(l, showControls).(ariaLabel := None)
  {
  }

  /** The card for a step, given the skip button it renders. */
  function BuildCard(l: Labels, showControls: Option<bool>, currentStep: int, totalSteps: int,
                     skip: Button): CardView
  {
    if totalSteps == 1 then
      CardView(l.aria.card, if currentStep + 1 == totalSteps then [FinishButton(l, showControls)] else [], None)
    else
      var previous := Button(Previous, l.previous, Some(l.aria.previousButton), currentStep == 0,
                             showControls, GoPrevious);
      var forward := if currentStep + 1 != totalSteps
                     then Button(Next, l.next, Some(l.aria.nextButton), false, showControls, GoNext)
                     else FinishButton(l, showControls);
      CardView(l.aria.card, [previous, forward, skip],
               Some(Counter(currentStep + 1, l.of, totalSteps)))
  }

  /** The error raised when the card reads `step.title` of an undefined step. */
  const MissingStep: string := "TypeError: Cannot read properties of undefined (reading 'title')"

  /** The default card for a step, as rendered. Without a step the card fails on
      its first read of the step. With one, the Skip button carries no aria label,
      and every other button carries the one configured for its role. */
  function DefaultCard(step: Option<Step>, currentStep: int, totalSteps: int,
                       user: Option<UserLabels>): (r: Result<CardView, string>)
    ensures r.Err? <==> step.None?
    ensures r.Err? ==> r.error == MissingStep
    ensures r.Ok? ==> r.value.ariaLabel == ResolveLabels(user).aria.card
    ensures r.Ok? ==> forall b :: b in r.value.buttons ==> b.showControls == step.value.showControls
    ensures r.Ok? ==> forall b :: b in r.value.buttons && b.role != Skip ==>
      b.ariaLabel == Some(AriaFor(ResolveLabels(user), b.role))
    ensures r.Ok? ==> forall b :: b in r.value.buttons && b.role == Skip ==> b.ariaLabel.None?
  {
    match step
    case None => Err(MissingStep)
    case Some(st) =>
      var l := ResolveLabels(user);
      Ok(BuildCard(l, st.showControls, currentStep, totalSteps, SkipButtonAsWritten(l, st.showControls)))
  }

  /** The card with the Skip button's aria label applied: every button carries
      the aria label configured for its role. */
  function DefaultCardCorrected(step: Option<Step>, currentStep: int, totalSteps: int,
                                user: Option<UserLabels>): (r: Result<CardView, string>)
    ensures r.Err? <==> step.None?
    ensures r.Ok? ==> r.value.ariaLabel == ResolveLabels(user).aria.card
    ensures r.Ok? ==> forall b :: b in r.value.buttons ==> b.showControls == step.value.showControls
    ensures r.Ok? ==> forall b :: b in r.value.buttons ==>
      b.ariaLabel == Some(AriaFor(ResolveLabels(user), b.role))
  {
    match step
    case None => Err(MissingStep)
    case Some(st) =>
      var l := ResolveLabels(user);
      Ok(BuildCard(l, st.showControls, currentStep, totalSteps, SkipButton(l, st.showControls)))
  }

  /** The rendered card and the corrected one differ exactly on multi-step
      cards, and there only in the Skip button's aria label. */
  lemma CorrectedCardDiffersOnlyInSkip(step: Step, currentStep: int, totalSteps: int,
                                       user: Option<UserLabels>)
    ensures var card := DefaultCard(Some(step), currentStep, totalSteps, user).value;
      var fixed := DefaultCardCorrected(Some(step), currentStep, totalSteps, user).value;
      && |card.buttons| == |fixed.buttons|
      && card.ariaLabel == fixed.ariaLabel && card.counter == fixed.counter
      && (forall i :: 0 <= i < |card.buttons| ==>
            card.buttons[i] == fixed.buttons[i].(ariaLabel := card.buttons[i].ariaLabel))
      && (card == fixed <==> totalSteps == 1)
  {
    var l := ResolveLabels(user);
    var card := DefaultCard(Some(step), currentStep, totalSteps, user).value;
    var fixed := DefaultCardCorrected(Some(step), currentStep, totalSteps, user).value;
    if totalSteps != 1 {
      SkipAriaLabelDropped(l, step.showControls);
      assert card.buttons[2] != fixed.buttons[2];
    }
  }

  /** How many buttons of a role the card renders. */
  function CountRole(buttons: seq<Button>, role: Role): nat
  {
    if |buttons| == 0 then 0
    else (if buttons[0].role == role then 1 else 0) + CountRole(buttons[1..], role)
  }

  /** A one-step card renders a Finish button on its last step and nothing
      else: no Previous, Next or Skip, and no counter. */
  lemma SingleStepCard(step: Step, currentStep: int, user: Option<UserLabels>)
    ensures var card := DefaultCard(Some(step), currentStep, 1, user).value;
      && CountRole(card.buttons, Finish) == (if currentStep == 0 then 1 else 0)
      && CountRole(card.buttons, Previous) == 0
      && CountRole(card.buttons, Next) == 0
      && CountRole(card.buttons, Skip) == 0
      && card.counter.None?
  {
    var card := DefaultCard(Some(step), currentStep, 1, user).value;
    if currentStep == 0 {
      assert card.buttons[1..] == [];
    }
  }

  /** A multi-step card renders one Previous button, disabled exactly on the
      first step; exactly one of Next and Finish, Finish exactly on the last
      step; one Skip button; and the counter `position of total`. */
  lemma MultiStepCard(step: Step, currentStep: int, totalSteps: int, user: Option<UserLabels>)
    requires totalSteps != 1
    ensures var card := DefaultCard(Some(step), currentStep, totalSteps, user).value;
      && CountRole(card.buttons, Previous) == 1
      && (forall b :: b in card.buttons && b.role == Previous ==> (b.disabled <==> currentStep == 0))
      && CountRole(card.buttons, Next) + CountRole(card.buttons, Finish) == 1
      && (CountRole(card.buttons, Finish) == 1 <==> currentStep + 1 == totalSteps)
      && CountRole(card.buttons, Skip) == 1
      && card.counter == Some(Counter(currentStep + 1, ResolveLabels(user).of, totalSteps))
  {
    var card := DefaultCard(Some(step), currentStep, totalSteps, user).value;
    var bs := card.buttons;
    CountThree(bs, Previous);
    CountThree(bs, Next);
    CountThree(bs, Finish);
    CountThree(bs, Skip);
  }

  function Indicator(b: Button, role: Role): nat
  {
    if b.role == role then 1 else 0
  }

  lemma CountThree(bs: seq<Button>, role: Role)
    requires |bs| == 3
    ensures CountRole(bs, role) == Indicator(bs[0], role) + Indicator(bs[1], role) + Indicator(bs[2], role)
  {
    var rest := bs[1..];
    assert rest[0] == bs[1];
    assert rest[1..][0] == bs[2];
    assert rest[1..][1..] == [];
    assert CountRole(rest[1..], role) == Indicator(bs[2], role);
    assert CountRole(rest, role) == Indicator(bs[1], role) + Indicator(bs[2], role);
  }

  /** The tour state after pressing a closing button. */
  function Press(s: TourState.State, a: Action): Option<TourState.State>
  {
    match a
    case CloseOnboarding => Some(TourState.Close(s))
    case CloseWithConfetti => Some(TourState.Close(s))
    case _ => None
  }

  /** The button effect beyond closing: confetti, only for Finish. */
  predicate FiresConfetti(a: Action)
  {
    a == CloseWithConfetti
  }

  /** Finish and Skip both close the tour (hidden, no active tour, step kept);
      only Finish fires confetti; Previous and Next invoke the step controls. */
  lemma ClosingButtons(step: Step, currentStep: int, totalSteps: int,
                       user: Option<UserLabels>, s: TourState.State)
    ensures forall b :: b in DefaultCard(Some(step), currentStep, totalSteps, user).value.buttons ==>
      && ((b.role == Finish || b.role == Skip) <==> Press(s, b.action).Some?)
      && (Press(s, b.action).Some? ==>
            !Press(s, b.action).value.visible && Press(s, b.action).value.tour.None?
            && Press(s, b.action).value.step == s.step)
      && (FiresConfetti(b.action) <==> b.role == Finish)
      && (b.role == Previous ==> b.action == GoPrevious)
      && (b.role == Next ==> b.action == GoNext)
  {
  }

  // ---------------------------------------------------------------------------
  // Button styling

  datatype Style = Style(cursor: string, display: string, opacity: real)

  /** A button is displayed only when the step sets `showControls`; a disabled
      one shows the not-allowed cursor at half opacity. */
  function ButtonStyle(b: Button): (st: Style)
    ensures st.display == "inline-block" <==> b.showControls == Some(true)
    ensures st.display != "inline-block" ==> st.display == "none"
    ensures b.disabled <==> st.cursor == "not-allowed"
    ensures b.disabled ==> st.opacity == 0.5
    ensures !b.disabled ==> st.cursor == "pointer" && st.opacity == 1.0
  {
    Style(if b.disabled then "not-allowed" else "pointer",
          if b.showControls == Some(true) then "inline-block" else "none",
          if b.disabled then 0.5 else 1.0)
  }

  /** Every button of a card, Skip included, is shown or hidden together with
      the step's `showControls`. */
  lemma ControlsShownTogether(step: Step, currentStep: int, totalSteps: int,
                              user: Option<UserLabels>)
    ensures forall b :: b in DefaultCard(Some(step), currentStep, totalSteps, user).value.buttons ==>
      (ButtonStyle(b).display == "inline-block" <==> step.showControls == Some(true))
  {
  }
}

=== FILE: common.dfy ===
/** Optional values and error results shared by the tour model.
    `None` stands for the source's `null`/`undefined`. */
module Common {

  datatype Option<+T> = None | Some(value: T) {

    /** The value when present, else `default` (the source's `??` operator). */
    function GetOr(default: T): T
    {
      match this
      case Some(v) => v
      case None => default
    }
  }

  datatype Result<+T, +E> = Ok(value: T) | Err(error: E)

  function Max(a: int, b: int): int
  {
    if a >= b then a else b
  }
}

=== FILE: cutoff.dfy ===
/** The side cutoff corrector `checkSideCutOff`: given the preferred side of
    the card, the target's document rectangle and the document extents, it
    returns the side to use so that a card of an assumed size is not cut off.

    `CheckSideCutOff` works on arbitrary strings, exactly as the source does.
    `Placement` is a structured reading of the well-formed sides (a primary
    direction with an optional corner on the other axis); `Reference` states
    the correction rule over it without any string operation, and
    `MatchesReference` proves the two agree on every well-formed side. */
module Cutoff {
  import opened Common
  import opened Strings
  import opened Geometry

  /** The card footprint assumed when deciding whether it would be cut off. */
  const CardSize: int := 256

  /** The card would pass the right edge. */
  predicate OverflowsRight(p: Rect, v: Extents)
  {
    v.scrollWidth < p.x + p.width + CardSize
  }

  /** The card would pass the left edge. */
  predicate OverflowsLeft(p: Rect)
  {
    p.x < CardSize
  }

  /** The card would pass the top edge. */
  predicate OverflowsTop(p: Rect)
  {
    p.y < CardSize
  }

  /** The card would pass the bottom edge. */
  predicate OverflowsBottom(p: Rect, v: Extents)
  {
    p.y + p.height + CardSize > v.scrollHeight
  }

  /** The `removeSide` flag: a side starting with `right` or `left` whose
      card would be cut off on that edge loses its horizontal component. */
  predicate RemoveSide(side: string, pos: Option<Rect>, v: Extents)
  {
    if StartsWith(side, "right") && pos.Some? && OverflowsRight(pos.value, v) then true
    else if StartsWith(side, "left") && pos.Some? && OverflowsLeft(pos.value) then true
    else false
  }

  /** The top branch fires: the side mentions `top` and the card would pass the top edge. */
  predicate TopFires(side: string, pos: Option<Rect>)
  {
    Includes(side, "top") && pos.Some? && OverflowsTop(pos.value)
  }

  /** The bottom branch fires (it is only consulted when the top branch does not). */
  predicate BottomFires(side: string, pos: Option<Rect>, v: Extents)
  {
    Includes(side, "bottom") && pos.Some? && OverflowsBottom(pos.value, v)
  }

  function CheckSideCutOff(side: string, pos: Option<Rect>, viewport: Option<Extents>): (r: string)
    ensures side == "" ==> r == side
    ensures viewport.None? ==> r == side
    ensures pos.None? ==> r == side
  {
    if side == "" then side
    else if viewport.None? then side
    else
      var v := viewport.value;
      var removeSide := RemoveSide(side, pos, v);
      if TopFires(side, pos) then
        (if removeSide then "bottom" else ReplaceFirst(side, "top", "bottom"))
      else if BottomFires(side, pos, v) then
        (if removeSide then "top" else ReplaceFirst(side, "bottom", "top"))
      else if removeSide then
        (if pos.Some? && pos.value.y < CardSize then "bottom" else "top")
      else side
  }

  /** Some overflow condition applies to a non-empty side with both inputs present. */
  predicate AnyFires(side: string, p: Rect, v: Extents)
  {
    RemoveSide(side, Some(p), v) || TopFires(side, Some(p)) || BottomFires(side, Some(p), v)
  }

  /** The side is changed exactly when some overflow condition fires. */
  lemma ChangedIffOverflow(side: string, p: Rect, v: Extents)
    requires side != ""
    ensures CheckSideCutOff(side, Some(p), Some(v)) != side <==> AnyFires(side, p, v)
  {
    var r := CheckSideCutOff(side, Some(p), Some(v));
    var removeSide := RemoveSide(side, Some(p), v);
    if removeSide {
      assert side[0] == 'r' || side[0] == 'l' by {
        StartsWithFirstChar(side, "right");
        StartsWithFirstChar(side, "left");
      }
      assert r == "top" || r == "bottom";
    } else if TopFires(side, Some(p)) || BottomFires(side, Some(p), v) {
      assert |r| != |side|;
    }
  }

  /** A side that starts with `top` never loses a horizontal component. */
  lemma TopPrefixKeepsSide(side: string, pos: Option<Rect>, v: Extents)
    requires StartsWith(side, "top")
    ensures !RemoveSide(side, pos, v)
  {
    StartsWithFirstChar(side, "top");
    StartsWithFirstChar(side, "right");
    StartsWithFirstChar(side, "left");
  }

  /** A side that starts with `top` whose card would pass the top edge flips
      to `bottom` and keeps its suffix (`top-left` becomes `bottom-left`). */
  lemma TopFlipKeepsSuffix(side: string, p: Rect, v: Extents)
    requires StartsWith(side, "top") && p.y < CardSize
    ensures CheckSideCutOff(side, Some(p), Some(v)) == "bottom" + side[3..]
  {
    TopPrefixKeepsSide(side, Some(p), v);
    StartsWithIndexZero(side, "top");
    ReplaceLeading(side, "top", "bottom");
  }

  /** A side that starts with `bottom`, does not mention `top`, and whose card
      would pass the bottom edge flips to `top` and keeps its suffix. */
  lemma BottomFlipKeepsSuffix(side: string, p: Rect, v: Extents)
    requires StartsWith(side, "bottom") && !Includes(side, "top") && OverflowsBottom(p, v)
    ensures CheckSideCutOff(side, Some(p), Some(v)) == "top" + side[6..]
  {
    StartsWithFirstChar(side, "bottom");
    StartsWithFirstChar(side, "right");
    StartsWithFirstChar(side, "left");
    StartsWithIndexZero(side, "bottom");
    ReplaceLeading(side, "bottom", "top");
  }

  /** Once the horizontal component is removed, only a plain vertical side can
      come out: `bottom` when the top branch fires, `top` when the bottom branch
      fires instead, and otherwise the half the target sits in decides. */
  lemma HorizontalRemovalCollapses(side: string, p: Rect, v: Extents)
    requires side != "" && RemoveSide(side, Some(p), v)
    ensures var r := CheckSideCutOff(side, Some(p), Some(v));
      && (TopFires(side, Some(p)) ==> r == "bottom")
      && (!TopFires(side, Some(p)) && BottomFires(side, Some(p), v) ==> r == "top")
      && (!TopFires(side, Some(p)) && !BottomFires(side, Some(p), v) ==>
            r == (if OverflowsTop(p) then "bottom" else "top"))
  {
  }

  // ---------------------------------------------------------------------------
  // Structured placements and the reference correction rule

  datatype Dir = Top | Bottom | Left | Right

  function DirName(d: Dir): string
  {
    match d
    case Top => "top"
    case Bottom => "bottom"
    case Left => "left"
    case Right => "right"
  }

  predicate IsVertical(d: Dir)
  {
    d == Top || d == Bottom
  }

  /** A primary direction with an optional corner modifier (`top-left`, `right-top`). */
  datatype Placement = Placement(primary: Dir, corner: Option<Dir>)

  /** The corner, when present, lies on the other axis than the primary direction. */
  predicate WellFormed(pl: Placement)
  {
    pl.corner.Some? ==> IsVertical(pl.corner.value) != IsVertical(pl.primary)
  }

  function Render(pl: Placement): string
  {
    DirName(pl.primary) + (if pl.corner.Some? then "-" + DirName(pl.corner.value) else "")
  }

  predicate Has(pl: Placement, d: Dir)
  {
    pl.primary == d || pl.corner == Some(d)
  }

  /** Replaces the component `from` of the placement by `to`. */
  function Swap(pl: Placement, from: Dir, to: Dir): Placement
  {
    if pl.primary == from then Placement(to, pl.corner)
    else if pl.corner == Some(from) then Placement(pl.primary, Some(to))
    else pl
  }

  /** A horizontal primary whose card would be cut off on its own side. */
  predicate HorizontalCut(pl: Placement, p: Rect, v: Extents)
  {
    (pl.primary == Right && OverflowsRight(p, v)) || (pl.primary == Left && OverflowsLeft(p))
  }

  /** The correction rule stated on placements: a horizontal primary whose card
      would be cut off collapses to a plain vertical side; otherwise a vertical
      component whose card would be cut off is flipped and the other component
      kept; otherwise the placement is kept. */
  function Reference(pl: Placement, p: Rect, v: Extents): (r: Placement)
    ensures WellFormed(pl) ==> WellFormed(r)
    ensures r != pl ==> HorizontalCut(pl, p, v) || (Has(pl, Top) && OverflowsTop(p))
                        || (Has(pl, Bottom) && OverflowsBottom(p, v))
    ensures HorizontalCut(pl, p, v) ==> r.corner.None? && IsVertical(r.primary)
    ensures !IsVertical(r.primary) ==> r.primary == pl.primary && !HorizontalCut(pl, p, v)
    ensures forall d :: !IsVertical(d) && Has(r, d) ==> Has(pl, d)
  {
    var horizontalCut := HorizontalCut(pl, p, v);
    var topCut := Has(pl, Top) && OverflowsTop(p);
    var bottomCut := Has(pl, Bottom) && OverflowsBottom(p, v);
    if horizontalCut then
      Placement(if topCut then Bottom else if bottomCut then Top else if OverflowsTop(p) then Bottom else Top, None)
    else if topCut then Swap(pl, Top, Bottom)
    else if bottomCut then Swap(pl, Bottom, Top)
    else pl
  }

  lemma NameChars(d: Dir)
    ensures 'p' in DirName(d) <==> d == Top
    ensures 'm' in DirName(d) <==> d == Bottom
    ensures '-' !in DirName(d)
    ensures |DirName(d)| > 0
  {
  }

  /** How the string operations of the corrector read a rendered placement. */
  lemma RenderFacts(pl: Placement)
    requires WellFormed(pl)
    ensures StartsWith(Render(pl), "right") <==> pl.primary == Right
    ensures StartsWith(Render(pl), "left") <==> pl.primary == Left
    ensures Includes(Render(pl), "top") <==> Has(pl, Top)
    ensures Includes(Render(pl), "bottom") <==> Has(pl, Bottom)
    ensures Has(pl, Top) ==> ReplaceFirst(Render(pl), "top", "bottom") == Render(Swap(pl, Top, Bottom))
    ensures Has(pl, Bottom) ==> ReplaceFirst(Render(pl), "bottom", "top") == Render(Swap(pl, Bottom, Top))
    ensures Render(pl) != ""
  {
    var s := Render(pl);
    var head := DirName(pl.primary);
    var tail := if pl.corner.Some? then "-" + DirName(pl.corner.value) else "";
    assert s == head + tail;
    NameChars(pl.primary);
    assert s[0] == head[0];
    assert s[..|head|] == head;
    // startsWith on the primary name
    StartsWithFirstChar(s, "right");
    StartsWithFirstChar(s, "left");
    // includes / replace for each vertical token
    VerticalToken(pl, Top, "top", Bottom, "bottom");
    VerticalToken(pl, Bottom, "bottom", Top, "top");
  }

  /** `includes` and `replace` on one vertical token of a rendered placement. */
  lemma VerticalToken(pl: Placement, d: Dir, name: string, e: Dir, other: string)
    requires WellFormed(pl)
    requires (d == Top && name == "top" && e == Bottom && other == "bottom")
          || (d == Bottom && name == "bottom" && e == Top && other == "top")
    ensures Includes(Render(pl), name) <==> Has(pl, d)
    ensures Has(pl, d) ==> ReplaceFirst(Render(pl), name, other) == Render(Swap(pl, d, e))
  {
    if pl.primary == d {
      TokenAsPrimary(pl, d, e);
    } else if pl.corner == Some(d) {
      TokenAsCorner(pl, d, e);
    } else {
      TokenAbsent(pl, d);
    }
  }

  lemma TokenAsPrimary(pl: Placement, d: Dir, e: Dir)
    requires pl.primary == d
    ensures Includes(Render(pl), DirName(d))
    ensures ReplaceFirst(Render(pl), DirName(d), DirName(e)) == Render(Placement(e, pl.corner))
  {
    var s := Render(pl);
    var name := DirName(d);
    var tail := if pl.corner.Some? then "-" + DirName(pl.corner.value) else "";
    assert s == name + tail;
    assert StartsWith(s, name) by { assert s[..|name|] == name; }
    StartsWithIndexZero(s, name);
    ReplaceLeading(s, name, DirName(e));
    assert s[|name|..] == tail;
  }

  lemma TokenAsCorner(pl: Placement, d: Dir, e: Dir)
    requires pl.corner == Some(d) && IsVertical(d) && !IsVertical(pl.primary)
    ensures Includes(Render(pl), DirName(d))
    ensures ReplaceFirst(Render(pl), DirName(d), DirName(e)) == Render(Placement(pl.primary, Some(e)))
  {
    var prefix := DirName(pl.primary) + "-";
    assert prefix == "left-" || prefix == "right-";
    assert Render(pl) == prefix + DirName(d);
    assert Render(Placement(pl.primary, Some(e))) == prefix + DirName(e);
    if d == Top {
      TrailingToken(prefix, "top", DirName(e));
    } else {
      TrailingToken(prefix, "bottom", DirName(e));
    }
  }

  /** A vertical token after a horizontal primary is its first occurrence. */
  lemma TrailingToken(prefix: string, name: string, replacement: string)
    requires prefix == "left-" || prefix == "right-"
    requires name == "top" || name == "bottom"
    ensures Includes(prefix + name, name)
    ensures ReplaceFirst(prefix + name, name, replacement) == prefix + replacement
  {
    assert name[|name| - 1] !in prefix + name[..|name| - 1];
    ReplaceTrailing(prefix, name, replacement);
    assert OccursAt(prefix + name, name, |prefix|) by {
      assert (prefix + name)[|prefix|..|prefix| + |name|] == name;
    }
  }

  lemma TokenAbsent(pl: Placement, d: Dir)
    requires IsVertical(d) && !Has(pl, d)
    ensures !Includes(Render(pl), DirName(d))
  {
    var name := DirName(d);
    NameChars(pl.primary);
    if pl.corner.Some? { NameChars(pl.corner.value); }
    assert name[|name| - 1] == (if d == Top then 'p' else 'm');
    assert name[|name| - 1] !in Render(pl);
    AbsentLastChar(Render(pl), name);
  }

  /** The string corrector and the reference rule agree on every well-formed side. */
  lemma MatchesReference(pl: Placement, p: Rect, v: Extents)
    requires WellFormed(pl)
    ensures CheckSideCutOff(Render(pl), Some(p), Some(v)) == Render(Reference(pl, p, v))
  {
    RenderFacts(pl);
  }

  // ---------------------------------------------------------------------------
  // Strict thresholds on the four edges

  /** `x + width + 256 == scrollWidth` keeps `right`; one unit more removes it. */
  lemma RightEdgeIsStrict(p: Rect, v: Extents)
    ensures p.x + p.width + CardSize == v.scrollWidth ==>
      CheckSideCutOff("right", Some(p), Some(v)) == "right"
    ensures p.x + p.width + CardSize == v.scrollWidth + 1 ==>
      CheckSideCutOff("right", Some(p), Some(v)) == (if p.y < CardSize then "bottom" else "top")
  {
    MatchesReference(Placement(Right, None), p, v);
    assert Render(Placement(Right, None)) == "right";
  }

  /** `x == 256` keeps `left`; `x == 255` removes it. */
  lemma LeftEdgeIsStrict(p: Rect, v: Extents)
    ensures p.x == CardSize ==> CheckSideCutOff("left", Some(p), Some(v)) == "left"
    ensures p.x == CardSize - 1 ==>
      CheckSideCutOff("left", Some(p), Some(v)) == (if p.y < CardSize then "bottom" else "top")
  {
    MatchesReference(Placement(Left, None), p, v);
    assert Render(Placement(Left, None)) == "left";
  }

  /** `y == 256` keeps `top`; `y == 255` flips it to `bottom`. */
  lemma TopEdgeIsStrict(p: Rect, v: Extents)
    ensures p.y == CardSize ==> CheckSideCutOff("top", Some(p), Some(v)) == "top"
    ensures p.y == CardSize - 1 ==> CheckSideCutOff("top", Some(p), Some(v)) == "bottom"
  {
    MatchesReference(Placement(Top, None), p, v);
    assert Render(Placement(Top, None)) == "top";
    assert Render(Placement(Bottom, None)) == "bottom";
  }

  /** `y + height + 256 == scrollHeight` keeps `bottom`; one unit more flips it to `top`. */
  lemma BottomEdgeIsStrict(p: Rect, v: Extents)
    ensures p.y + p.height + CardSize == v.scrollHeight ==>
      CheckSideCutOff("bottom", Some(p), Some(v)) == "bottom"
    ensures p.y + p.height + CardSize == v.scrollHeight + 1 ==>
      CheckSideCutOff("bottom", Some(p), Some(v)) == "top"
  {
    MatchesReference(Placement(Bottom, None), p, v);
    assert Render(Placement(Top, None)) == "top";
    assert Render(Placement(Bottom, None)) == "bottom";
  }

  /** Horizontal removal applies only to sides that START with `right` or
      `left`: a corner side with a vertical primary keeps its corner whatever
      the horizontal overflow, and flips only on its own vertical edge. */
  lemma CornerSidesKeepCorner(p: Rect, v: Extents)
    ensures CheckSideCutOff("top-left", Some(p), Some(v)) ==
      (if OverflowsTop(p) then "bottom-left" else "top-left")
    ensures CheckSideCutOff("top-right", Some(p), Some(v)) ==
      (if OverflowsTop(p) then "bottom-right" else "top-right")
    ensures CheckSideCutOff("bottom-left", Some(p), Some(v)) ==
      (if OverflowsBottom(p, v) then "top-left" else "bottom-left")
    ensures CheckSideCutOff("bottom-right", Some(p), Some(v)) ==
      (if OverflowsBottom(p, v) then "top-right" else "bottom-right")
  {
    RenderedNames();
    MatchesReference(Placement(Top, Some(Left)), p, v);
    MatchesReference(Placement(Top, Some(Right)), p, v);
    MatchesReference(Placement(Bottom, Some(Left)), p, v);
    MatchesReference(Placement(Bottom, Some(Right)), p, v);
  }

  /** The rendered name of every placement, as a literal. */
  lemma RenderedNames()
    ensures Render(Placement(Top, None)) == "top"
    ensures Render(Placement(Bottom, None)) == "bottom"
    ensures Render(Placement(Left, None)) == "left"
    ensures Render(Placement(Right, None)) == "right"
    ensures Render(Placement(Top, Some(Left))) == "top-left"
    ensures Render(Placement(Top, Some(Right))) == "top-right"
    ensures Render(Placement(Bottom, Some(Left))) == "bottom-left"
    ensures Render(Placement(Bottom, Some(Right))) == "bottom-right"
    ensures Render(Placement(Left, Some(Top))) == "left-top"
    ensures Render(Placement(Left, Some(Bottom))) == "left-bottom"
    ensures Render(Placement(Right, Some(Top))) == "right-top"
    ensures Render(Placement(Right, Some(Bottom))) == "right-bottom"
  {
  }

  // ---------------------------------------------------------------------------
  // The expected-results table, row by row

  /** Rows where the card fits: every side is kept. */
  lemma NoCutoffResults()
    ensures CheckSideCutOff("right", Some(Rect(100, 500, 100, 50)), Some(Extents(1920, 1080))) == "right"
    ensures CheckSideCutOff("left", Some(Rect(500, 500, 100, 50)), Some(Extents(1920, 1080))) == "left"
    ensures CheckSideCutOff("top", Some(Rect(500, 500, 100, 50)), Some(Extents(1920, 1080))) == "top"
    ensures CheckSideCutOff("bottom", Some(Rect(500, 300, 100, 50)), Some(Extents(1920, 1080))) == "bottom"
    ensures CheckSideCutOff("top-left", Some(Rect(500, 500, 100, 50)), Some(Extents(1920, 1080))) == "top-left"
    ensures CheckSideCutOff("top-right", Some(Rect(500, 500, 100, 50)), Some(Extents(1920, 1080))) == "top-right"
    ensures CheckSideCutOff("bottom-left", Some(Rect(500, 300, 100, 50)), Some(Extents(1920, 1080))) == "bottom-left"
    ensures CheckSideCutOff("bottom-right", Some(Rect(500, 300, 100, 50)), Some(Extents(1920, 1080))) == "bottom-right"
  {
    RenderedNames();
    MatchesReference(Placement(Right, None), Rect(100, 500, 100, 50), Extents(1920, 1080));
    MatchesReference(Placement(Left, None), Rect(500, 500, 100, 50), Extents(1920, 1080));
    MatchesReference(Placement(Top, None), Rect(500, 500, 100, 50), Extents(1920, 1080));
    MatchesReference(Placement(Bottom, None), Rect(500, 300, 100, 50), Extents(1920, 1080));
    MatchesReference(Placement(Top, Some(Left)), Rect(500, 500, 100, 50), Extents(1920, 1080));
    MatchesReference(Placement(Top, Some(Right)), Rect(500, 500, 100, 50), Extents(1920, 1080));
    MatchesReference(Placement(Bottom, Some(Left)), Rect(500, 300, 100, 50), Extents(1920, 1080));
    MatchesReference(Placement(Bottom, Some(Right)), Rect(500, 300, 100, 50), Extents(1920, 1080));
  }

  /** Rows for the right edge: a side starting with `right` collapses to a plain vertical side. */
  lemma RightEdgeResults()
    ensures CheckSideCutOff("right", Some(Rect(1664, 500, 100, 50)), Some(Extents(1920, 1080))) == "top"
    ensures CheckSideCutOff("right", Some(Rect(1664, 100, 100, 50)), Some(Extents(1920, 1080))) == "bottom"
    ensures CheckSideCutOff("right-top", Some(Rect(1664, 500, 100, 50)), Some(Extents(1920, 1080))) == "top"
    ensures CheckSideCutOff("right-bottom", Some(Rect(1664, 500, 100, 50)), Some(Extents(1920, 1080))) == "top"
  {
    RenderedNames();
    MatchesReference(Placement(Right, None), Rect(1664, 500, 100, 50), Extents(1920, 1080));
    MatchesReference(Placement(Right, None), Rect(1664, 100, 100, 50), Extents(1920, 1080));
    MatchesReference(Placement(Right, Some(Top)), Rect(1664, 500, 100, 50), Extents(1920, 1080));
    MatchesReference(Placement(Right, Some(Bottom)), Rect(1664, 500, 100, 50), Extents(1920, 1080));
  }

  /** Rows for the left edge, including the kept side at `x == 256`. */
  lemma LeftEdgeResults()
    ensures CheckSideCutOff("left", Some(Rect(100, 500, 100, 50)), Some(Extents(1920, 1080))) == "top"
    ensures CheckSideCutOff("left", Some(Rect(100, 100, 100, 50)), Some(Extents(1920, 1080))) == "bottom"
    ensures CheckSideCutOff("left-top", Some(Rect(100, 500, 100, 50)), Some(Extents(1920, 1080))) == "top"
    ensures CheckSideCutOff("left-bottom", Some(Rect(100, 500, 100, 50)), Some(Extents(1920, 1080))) == "top"
    ensures CheckSideCutOff("left", Some(Rect(256, 500, 100, 50)), Some(Extents(1920, 1080))) == "left"
  {
    RenderedNames();
    MatchesReference(Placement(Left, None), Rect(100, 500, 100, 50), Extents(1920, 1080));
    MatchesReference(Placement(Left, None), Rect(100, 100, 100, 50), Extents(1920, 1080));
    MatchesReference(Placement(Left, Some(Top)), Rect(100, 500, 100, 50), Extents(1920, 1080));
    MatchesReference(Placement(Left, Some(Bottom)), Rect(100, 500, 100, 50), Extents(1920, 1080));
    MatchesReference(Placement(Left, None), Rect(256, 500, 100, 50), Extents(1920, 1080));
  }

  /** Rows for the top edge: `top` flips to `bottom` keeping the corner. */
  lemma TopEdgeResults()
    ensures CheckSideCutOff("top", Some(Rect(500, 100, 100, 50)), Some(Extents(1920, 1080))) == "bottom"
    ensures CheckSideCutOff("top-left", Some(Rect(500, 100, 100, 50)), Some(Extents(1920, 1080))) == "bottom-left"
    ensures CheckSideCutOff("top-right", Some(Rect(500, 100, 100, 50)), Some(Extents(1920, 1080))) == "bottom-right"
    ensures CheckSideCutOff("top", Some(Rect(500, 256, 100, 50)), Some(Extents(1920, 1080))) == "top"
  {
    RenderedNames();
    MatchesReference(Placement(Top, None), Rect(500, 100, 100, 50), Extents(1920, 1080));
    MatchesReference(Placement(Top, Some(Left)), Rect(500, 100, 100, 50), Extents(1920, 1080));
    MatchesReference(Placement(Top, Some(Right)), Rect(500, 100, 100, 50), Extents(1920, 1080));
    MatchesReference(Placement(Top, None), Rect(500, 256, 100, 50), Extents(1920, 1080));
  }

  /** Rows for the bottom edge: `bottom` flips to `top` keeping the corner. */
  lemma BottomEdgeResults()
    ensures CheckSideCutOff("bottom", Some(Rect(500, 824, 100, 50)), Some(Extents(1920, 1080))) == "top"
    ensures CheckSideCutOff("bottom-left", Some(Rect(500, 824, 100, 50)), Some(Extents(1920, 1080))) == "top-left"
    ensures CheckSideCutOff("bottom-right", Some(Rect(500, 824, 100, 50)), Some(Extents(1920, 1080))) == "top-right"
    ensures CheckSideCutOff("bottom", Some(Rect(500, 500, 100, 50)), Some(Extents(1920, 1080))) == "bottom"
  {
    RenderedNames();
    MatchesReference(Placement(Bottom, None), Rect(500, 824, 100, 50), Extents(1920, 1080));
    MatchesReference(Placement(Bottom, Some(Left)), Rect(500, 824, 100, 50), Extents(1920, 1080));
    MatchesReference(Placement(Bottom, Some(Right)), Rect(500, 824, 100, 50), Extents(1920, 1080));
    MatchesReference(Placement(Bottom, None), Rect(500, 500, 100, 50), Extents(1920, 1080));
  }

  /** Rows for corners past two edges: the vertical part flips and the corner stays. */
  lemma CornerResults()
    ensures CheckSideCutOff("top-left", Some(Rect(100, 100, 100, 50)), Some(Extents(1920, 1080))) == "bottom-left"
    ensures CheckSideCutOff("top-right", Some(Rect(1664, 100, 100, 50)), Some(Extents(1920, 1080))) == "bottom-right"
    ensures CheckSideCutOff("bottom-left", Some(Rect(100, 824, 100, 50)), Some(Extents(1920, 1080))) == "top-left"
    ensures CheckSideCutOff("bottom-right", Some(Rect(1664, 824, 100, 50)), Some(Extents(1920, 1080))) == "top-right"
  {
    RenderedNames();
    MatchesReference(Placement(Top, Some(Left)), Rect(100, 100, 100, 50), Extents(1920, 1080));
    MatchesReference(Placement(Top, Some(Right)), Rect(1664, 100, 100, 50), Extents(1920, 1080));
    MatchesReference(Placement(Bottom, Some(Left)), Rect(100, 824, 100, 50), Extents(1920, 1080));
    MatchesReference(Placement(Bottom, Some(Right)), Rect(1664, 824, 100, 50), Extents(1920, 1080));
  }

  /** Rows for a 375 x 667 document. */
  lemma MobileResults()
    ensures CheckSideCutOff("right", Some(Rect(119, 300, 100, 50)), Some(Extents(375, 667))) == "top"
    ensures CheckSideCutOff("left", Some(Rect(100, 300, 100, 50)), Some(Extents(375, 667))) == "top"
    ensures CheckSideCutOff("bottom", Some(Rect(100, 411, 100, 50)), Some(Extents(375, 667))) == "top"
  {
    RenderedNames();
    MatchesReference(Placement(Right, None), Rect(119, 300, 100, 50), Extents(375, 667));
    MatchesReference(Placement(Left, None), Rect(100, 300, 100, 50), Extents(375, 667));
    MatchesReference(Placement(Bottom, None), Rect(100, 411, 100, 50), Extents(375, 667));
  }

  /** The boundary rows for the 256 px card size on each edge. */
  lemma ThresholdResults()
    ensures CheckSideCutOff("right", Some(Rect(1564, 500, 100, 50)), Some(Extents(1920, 1080))) == "right"
    ensures CheckSideCutOff("right", Some(Rect(1565, 500, 100, 50)), Some(Extents(1920, 1080))) == "top"
    ensures CheckSideCutOff("left", Some(Rect(256, 500, 100, 50)), Some(Extents(1920, 1080))) == "left"
    ensures CheckSideCutOff("left", Some(Rect(255, 500, 100, 50)), Some(Extents(1920, 1080))) == "top"
    ensures CheckSideCutOff("top", Some(Rect(500, 256, 100, 50)), Some(Extents(1920, 1080))) == "top"
    ensures CheckSideCutOff("top", Some(Rect(500, 255, 100, 50)), Some(Extents(1920, 1080))) == "bottom"
    ensures CheckSideCutOff("bottom", Some(Rect(500, 774, 100, 50)), Some(Extents(1920, 1080))) == "bottom"
    ensures CheckSideCutOff("bottom", Some(Rect(500, 775, 100, 50)), Some(Extents(1920, 1080))) == "top"
  {
    RenderedNames();
    MatchesReference(Placement(Right, None), Rect(1564, 500, 100, 50), Extents(1920, 1080));
    MatchesReference(Placement(Right, None), Rect(1565, 500, 100, 50), Extents(1920, 1080));
    MatchesReference(Placement(Left, None), Rect(256, 500, 100, 50), Extents(1920, 1080));
    MatchesReference(Placement(Left, None), Rect(255, 500, 100, 50), Extents(1920, 1080));
    MatchesReference(Placement(Top, None), Rect(500, 256, 100, 50), Extents(1920, 1080));
    MatchesReference(Placement(Top, None), Rect(500, 255, 100, 50), Extents(1920, 1080));
    MatchesReference(Placement(Bottom, None), Rect(500, 774, 100, 50), Extents(1920, 1080));
    MatchesReference(Placement(Bottom, None), Rect(500, 775, 100, 50), Extents(1920, 1080));
  }

  /** The rows with a missing input: an empty side, no viewport, no target. */
  lemma NullHandlingResults()
    ensures CheckSideCutOff("", Some(Rect(500, 500, 100, 50)), Some(Extents(1920, 1080))) == ""
    ensures CheckSideCutOff("right", Some(Rect(500, 500, 100, 50)), None) == "right"
    ensures CheckSideCutOff("right", None, Some(Extents(1920, 1080))) == "right"
  {
  }

  /** A corrected side is not a fixed point of the corrector: on a short
      document a `top` side near the top flips to `bottom`, and correcting
      that result again flips it back. */
  lemma CorrectionNotStable()
    ensures var p, v := Rect(0, 100, 10, 50), Extents(1000, 300);
      && CheckSideCutOff("top", Some(p), Some(v)) == "bottom"
      && CheckSideCutOff("bottom", Some(p), Some(v)) == "top"
  {
    TopEdgeIsStrict(Rect(0, 100, 10, 50), Extents(1000, 300));
    MatchesReference(Placement(Top, None), Rect(0, 100, 10, 50), Extents(1000, 300));
    MatchesReference(Placement(Bottom, None), Rect(0, 100, 10, 50), Extents(1000, 300));
    assert Render(Placement(Top, None)) == "top";
    assert Render(Placement(Bottom, None)) == "bottom";
  }
}

=== FILE: geometry.dfy ===
/** Rectangles and viewport extents shared by the placement and scroll logic.
    Coordinates are integers: the logic only adds, subtracts and compares. */
module Geometry {

  /** A rectangle in absolute document coordinates (the pointer position). */
  datatype Rect = Rect(x: int, y: int, width: int, height: int)

  /** The scrollable document's full extents. */
  datatype Extents = Extents(scrollWidth: int, scrollHeight: int)

  /** The viewport-relative rectangle `getBoundingClientRect` reports. */
  datatype ClientRect = ClientRect(left: int, top: int, width: int, height: int) {
    function Bottom(): int { top + height }
  }
}

=== FILE: navigation.dfy ===
/** Step controls of the tour renderer: `nextStep` and `prevStep` guard the
    step index, and on a step with a route they defer the index update until
    the next target's selector resolves on the new page, at which point the
    DOM watcher is disconnected. Navigation itself and the watcher's callbacks
    are driven by parameters: whether `router.push` succeeds and the sequence of
    documents the watcher observes. */
module Navigation {
  import opened Common
  import opened Steps
  import TourState

  /** The outcome of pressing next or previous. `Failed` is an error caught
      and logged by the control; the state is left as it was. */
  datatype NavOutcome =
    | Ignored
    | Failed
    | Move(index: int)
    | AwaitTarget(index: int, selector: string)
  {
    predicate Advances() { Move? || AwaitTarget? }
  }

  /** A route is followed only when it is a non-empty string. */
  predicate HasRoute(route: Option<string>)
  {
    route.Some? && route.value != ""
  }

  /** `nextStep()`. Reading the current step's route throws when the current
      index is not a step (a negative index passes the guard); a navigation
      that fails is caught too. */
  function NextStep(steps: Option<seq<Step>>, current: int, pushSucceeds: bool): (r: NavOutcome)
    ensures r == Ignored <==> steps.None? || current >= |steps.value| - 1
    ensures r.Advances() <==>
      steps.Some? && 0 <= current < |steps.value| - 1 && (HasRoute(steps.value[current].nextRoute) ==> pushSucceeds)
    ensures r.Advances() ==> r.index == current + 1
    ensures r.AwaitTarget? <==> r.Advances() && HasRoute(steps.value[current].nextRoute)
    ensures r.AwaitTarget? ==> r.selector == steps.value[current + 1].selector
  {
    if steps.None? || !(current < |steps.value| - 1) then Ignored
    else
      var tourSteps := steps.value;
      if current < 0 then Failed
      else
        var next := current + 1;
        if HasRoute(tourSteps[current].nextRoute) then
          (if pushSucceeds then AwaitTarget(next, tourSteps[next].selector) else Failed)
        else Move(next)
  }

  /** `prevStep()`. Reading the current step's route throws when the current
      index lies past the last step; a navigation that fails is caught too. */
  function PrevStep(steps: Option<seq<Step>>, current: int, pushSucceeds: bool): (r: NavOutcome)
    ensures r == Ignored <==> steps.None? || current <= 0
    ensures r.Advances() <==>
      steps.Some? && 0 < current < |steps.value| && (HasRoute(steps.value[current].prevRoute) ==> pushSucceeds)
    ensures r.Advances() ==> r.index == current - 1
    ensures r.AwaitTarget? <==> r.Advances() && HasRoute(steps.value[current].prevRoute)
    ensures r.AwaitTarget? ==> r.selector == steps.value[current - 1].selector
  {
    if steps.None? || !(current > 0) then Ignored
    else
      var tourSteps := steps.value;
      if current >= |tourSteps| then Failed
      else
        var prev := current - 1;
        if HasRoute(tourSteps[current].prevRoute) then
          (if pushSucceeds then AwaitTarget(prev, tourSteps[prev].selector) else Failed)
        else Move(prev)
  }

  /** The DOM watcher of a routed transition. */
  datatype Watcher = Watching(index: int, selector: string) | Disconnected

  /** The tour state together with the watcher a transition left behind. */
  datatype Pending = Pending(state: TourState.State, watcher: Watcher)

  /** Applies a control's outcome: a plain move sets the step at once, a routed
      one leaves the state alone and starts watching for the next target. */
  function Begin(s: TourState.State, outcome: NavOutcome): (r: Pending)
    ensures outcome.Move? ==> r == Pending(TourState.SetCurrentStep(s, outcome.index, None).state, Disconnected)
    ensures outcome.AwaitTarget? ==> r == Pending(s, Watching(outcome.index, outcome.selector))
    ensures !outcome.Advances() ==> r == Pending(s, Disconnected)
  {
    match outcome
    case Move(i) => Pending(TourState.SetCurrentStep(s, i, None).state, Disconnected)
    case AwaitTarget(i, selector) => Pending(s, Watching(i, selector))
    case _ => Pending(s, Disconnected)
  }

  /** The watcher's target now resolves. */
  predicate Resolves(w: Watcher, dom: Dom)
  {
    w.Watching? && w.selector in dom
  }

  /** One watcher callback: when the target resolves, the step is set and the
      watcher disconnected in the same callback; otherwise nothing changes. */
  function Observe(p: Pending, dom: Dom): (r: Pending)
    ensures Resolves(p.watcher, dom) ==>
      r.watcher == Disconnected && r.state == TourState.SetCurrentStep(p.state, p.watcher.index, None).state
    ensures !Resolves(p.watcher, dom) ==> r == p
  {
    match p.watcher
    case Disconnected => p
    case Watching(i, selector) =>
      if QuerySelector(dom, selector).Some? then Pending(TourState.SetCurrentStep(p.state, i, None).state, Disconnected)
      else p
  }

  /** Closing the tour does not reach a pending watcher: when its target then
      resolves, the callback still sets the step, which shows the overlay again
      with no tour. */
  lemma CloseDoesNotCancelWatcher(p: Pending, dom: Dom)
    requires p.watcher.Watching? && p.watcher.selector in dom
    ensures var r := Observe(Pending(TourState.Close(p.state), p.watcher), dom);
      && r.state.visible && r.state.tour.None? && r.state.step == p.watcher.index
      && r.watcher == Disconnected
  {
  }

  /** The callbacks for a sequence of observed documents. */
  function ObserveAll(p: Pending, doms: seq<Dom>): Pending
    decreases |doms|
  {
    if |doms| == 0 then p else ObserveAll(Observe(p, doms[0]), doms[1..])
  }

  /** A disconnected watcher ignores every later change. */
  lemma {:induction false} DisconnectedIgnores(p: Pending, doms: seq<Dom>)
    requires p.watcher.Disconnected?
    ensures ObserveAll(p, doms) == p
    decreases |doms|
  {
    if |doms| > 0 {
      DisconnectedIgnores(Observe(p, doms[0]), doms[1..]);
    }
  }

  /** While the target never resolves, the step is not updated and the watcher
      stays connected: there is no timeout. */
  lemma {:induction false} PendingUntilResolved(p: Pending, doms: seq<Dom>)
    requires forall k :: 0 <= k < |doms| ==> !Resolves(p.watcher, doms[k])
    ensures ObserveAll(p, doms) == p
    decreases |doms|
  {
    if |doms| > 0 {
      assert !Resolves(p.watcher, doms[0]);
      assert forall k :: 0 <= k < |doms[1..]| ==> doms[1..][k] == doms[k + 1];
      PendingUntilResolved(Observe(p, doms[0]), doms[1..]);
    }
  }

  /** The step is set exactly when the target first resolves, and the watcher is
      disconnected at that moment; later changes do nothing. */
  lemma {:induction false} CommitsOnFirstResolution(p: Pending, doms: seq<Dom>, first: nat)
    requires p.watcher.Watching?
    requires first < |doms| && Resolves(p.watcher, doms[first])
    requires forall k :: 0 <= k < first ==> !Resolves(p.watcher, doms[k])
    ensures ObserveAll(p, doms) ==
      Pending(TourState.SetCurrentStep(p.state, p.watcher.index, None).state, Disconnected)
    decreases first
  {
    if first == 0 {
      DisconnectedIgnores(Observe(p, doms[0]), doms[1..]);
    } else {
      assert !Resolves(p.watcher, doms[0]);
      assert forall k :: 0 <= k < |doms[1..]| ==> doms[1..][k] == doms[k + 1];
      CommitsOnFirstResolution(Observe(p, doms[0]), doms[1..], first - 1);
    }
  }

  /** The step index is a valid step and so is any index being waited for. */
  predicate IndexInRange(p: Pending, n: int)
  {
    0 <= p.state.step < n && (p.watcher.Watching? ==> 0 <= p.watcher.index < n)
  }

  lemma {:induction false} ObserveAllKeepsRange(p: Pending, doms: seq<Dom>, n: int)
    requires IndexInRange(p, n)
    ensures IndexInRange(ObserveAll(p, doms), n)
    decreases |doms|
  {
    if |doms| > 0 {
      ObserveAllKeepsRange(Observe(p, doms[0]), doms[1..], n);
    }
  }

  /** Starting from a valid step, next and previous keep the step index within
      the tour, whatever the navigation and the watcher observe. */
  lemma ControlsKeepIndexInRange(s: TourState.State, steps: seq<Step>, forward: bool,
                                 pushSucceeds: bool, doms: seq<Dom>)
    requires 0 <= s.step < |steps|
    ensures var outcome := if forward then NextStep(Some(steps), s.step, pushSucceeds)
                           else PrevStep(Some(steps), s.step, pushSucceeds);
      0 <= ObserveAll(Begin(s, outcome), doms).state.step < |steps|
  {
    var outcome := if forward then NextStep(Some(steps), s.step, pushSucceeds)
                   else PrevStep(Some(steps), s.step, pushSucceeds);
    ObserveAllKeepsRange(Begin(s, outcome), doms, |steps|);
  }
}

=== FILE: overlay.dfy ===
/** Mounting the card in the overlay: the renderer shows the default card
    whenever a pointer position is known and the tour is visible, passing the
    current step, which may be absent. The pointer position, once set, is only
    ever replaced by another rectangle, never cleared. */
module Overlay {
  import opened Common
  import opened Steps
  import opened Card
  import TourState
  import Navigation

  /** `currentTourSteps?.length ?? 0`. */
  function TotalSteps(steps: Option<seq<Step>>): (n: nat)
    ensures steps.None? ==> n == 0
    ensures steps.Some? ==> n == |steps.value|
  {
    if steps.Some? then |steps.value| else 0
  }

  /** The card the overlay renders, as written: `None` when nothing is mounted,
      otherwise the default card for `currentTourSteps?.[currentStep]`, which
      fails when that step does not exist. */
  function OverlayCard(pointerSet: bool, visible: bool, steps: Option<seq<Step>>, current: int,
                       user: Option<UserLabels>): (r: Option<Result<CardView, string>>)
    ensures r.Some? <==> pointerSet && visible
    ensures r.Some? ==> (r.value.Err? <==> StepAt(steps, current).None?)
  {
    if pointerSet && visible then Some(DefaultCard(StepAt(steps, current), current, TotalSteps(steps), user))
    else None
  }

  /** The overlay mounting the card only for an existing step: it never fails,
      and wherever the step exists it renders what the code as written renders. */
  function OverlayCardGuarded(pointerSet: bool, visible: bool, steps: Option<seq<Step>>, current: int,
                              user: Option<UserLabels>): (r: Option<Result<CardView, string>>)
    ensures r.Some? <==> pointerSet && visible && StepAt(steps, current).Some?
    ensures r.Some? ==> r.value.Ok?
    ensures StepAt(steps, current).Some? ==> r == OverlayCard(pointerSet, visible, steps, current, user)
  {
    if StepAt(steps, current).Some? then OverlayCard(pointerSet, visible, steps, current, user)
    else None
  }

  /** Starting a tour, closing it and setting a step shows the overlay with no
      tour, so no steps: the overlay as written mounts the card without a step
      and fails, while the guarded overlay renders nothing. */
  lemma StaleStepCrashes(tours: seq<Tour>, name: string, step: int, user: Option<UserLabels>)
    ensures var s := TourState.Run(TourState.Initial,
                                   [TourState.StartTour(name), TourState.CloseTour, TourState.SetStep(step, None)]);
      var steps := FindTourSteps(tours, s.tour);
      && OverlayCard(true, s.visible, steps, s.step, user) == Some(Err(MissingStep))
      && OverlayCardGuarded(true, s.visible, steps, s.step, user).None?
  {
    TourState.VisibleWithoutTour(name, step);
  }

  /** Setting a step past the end of an active tour (no bounds check) leaves
      the index out of range: the overlay as written fails, the guarded one
      renders nothing. */
  lemma PastEndCrashes(name: string, tourSteps: seq<Step>, user: Option<UserLabels>)
    ensures var s := TourState.Run(TourState.Initial,
                                   [TourState.StartTour(name), TourState.SetStep(|tourSteps|, None)]);
      var steps := FindTourSteps([Tour(name, tourSteps)], s.tour);
      && OverlayCard(true, s.visible, steps, s.step, user) == Some(Err(MissingStep))
      && OverlayCardGuarded(true, s.visible, steps, s.step, user).None?
  {
    var events := [TourState.StartTour(name), TourState.SetStep(|tourSteps|, None)];
    var s1 := TourState.Apply(TourState.Initial, events[0]);
    var s2 := TourState.Apply(s1, events[1]);
    assert events[1..] == [events[1]];
    assert TourState.Run(s1, events[1..]) == TourState.Run(s2, []) == s2;
    assert FindTourSteps([Tour(name, tourSteps)], Some(name)) == Some(tourSteps);
  }

  /** Pressing Skip or Finish while a routed control waits for its target, then
      letting the target appear: the watcher reopens the overlay with no tour,
      and the overlay as written fails. */
  lemma CloseWhilePendingCrashes(tours: seq<Tour>, p: Navigation.Pending, dom: Dom, user: Option<UserLabels>)
    requires p.watcher.Watching? && p.watcher.selector in dom
    ensures var r := Navigation.Observe(Navigation.Pending(TourState.Close(p.state), p.watcher), dom);
      && OverlayCard(true, r.state.visible, FindTourSteps(tours, r.state.tour), r.state.step, user)
           == Some(Err(MissingStep))
      && OverlayCardGuarded(true, r.state.visible, FindTourSteps(tours, r.state.tour), r.state.step, user).None?
  {
    Navigation.CloseDoesNotCancelWatcher(p, dom);
  }
}

=== FILE: scroll.dfy ===
/** Geometry and scroll decisions of the tour renderer: the document rectangle
    of the target, the in-viewport tests, the scroll that makes room for the
    card above the target, and the scroll to the top when the tour closes.
    Reading the DOM and `window.scrollTo` are outside the model: their results
    are parameters and the scroll is returned as a target offset. */
module Scroll {
  import opened Common
  import opened Geometry
  import opened Steps

  /** `window.scrollX/scrollY` and the document element's `scrollLeft/scrollTop`. */
  datatype ScrollState = ScrollState(windowX: int, windowY: int, documentLeft: int, documentTop: int)

  /** `a || b` on numbers: the first unless it is zero. */
  function OrElse(a: int, b: int): int
  {
    if a != 0 then a else b
  }

  /** The horizontal scroll offset `getElementPosition` adds. */
  function ScrollLeft(s: ScrollState): (r: int)
    ensures s.windowX != 0 ==> r == s.windowX
    ensures s.windowX == 0 ==> r == s.documentLeft
  {
    OrElse(s.windowX, s.documentLeft)
  }

  /** The vertical scroll offset `getElementPosition` adds. */
  function ScrollTop(s: ScrollState): (r: int)
    ensures s.windowY != 0 ==> r == s.windowY
    ensures s.windowY == 0 ==> r == s.documentTop
  {
    OrElse(s.windowY, s.documentTop)
  }

  /** `getElementPosition`: the viewport rectangle moved into document coordinates. */
  function DocumentRect(c: ClientRect, s: ScrollState): (r: Rect)
    ensures r.width == c.width && r.height == c.height
    ensures r.x == c.left + ScrollLeft(s) && r.y == c.top + ScrollTop(s)
  {
    Rect(c.left + ScrollLeft(s), c.top + ScrollTop(s), c.width, c.height)
  }

  /** The viewport rectangle an element with a given document rectangle has. */
  function ClientRectOf(r: Rect, s: ScrollState): ClientRect
  {
    ClientRect(r.x - ScrollLeft(s), r.y - ScrollTop(s), r.width, r.height)
  }

  /** The document rectangle is the viewport rectangle shifted by the scroll
      offsets, size unchanged: shifting back recovers it exactly. */
  lemma DocumentRectRoundTrip(c: ClientRect, r: Rect, s: ScrollState)
    ensures ClientRectOf(DocumentRect(c, s), s) == c
    ensures DocumentRect(ClientRectOf(r, s), s) == r
    ensures DocumentRect(c, s).width == c.width && DocumentRect(c, s).height == c.height
  {
  }

  /** Scrolling moves the viewport rectangle against the scroll and leaves
      the document rectangle where it was. */
  lemma DocumentRectScrollInvariant(r: Rect, s: ScrollState, s': ScrollState)
    ensures DocumentRect(ClientRectOf(r, s), s) == DocumentRect(ClientRectOf(r, s'), s')
  {
  }

  /** The tolerance in pixels around the viewport's top and bottom. */
  const Tolerance: int := 20

  /** The element lies within the viewport, give or take the tolerance. */
  predicate InViewportWithOffset(c: ClientRect, innerHeight: int)
  {
    c.top >= -Tolerance && c.Bottom() <= innerHeight + Tolerance
  }

  /** The weaker test `scrollToElement` applies: only the element's top is checked. */
  predicate TopInViewport(c: ClientRect, innerHeight: int)
  {
    c.top >= -Tolerance && c.top <= innerHeight + Tolerance
  }

  /** Conservative estimate of the card's height. */
  const EstimatedCardHeight: int := 350
  /** Gap between the card and its target (the floating offset). */
  const CardOffset: int := 17
  /** Breathing room kept above the card. */
  const TopMargin: int := 50
  /** Room reserved above the target for the card and margin. */
  const CardSpace: int := EstimatedCardHeight + CardOffset + TopMargin

  /** `scrollToElementWithCard`: no scroll when the card already fits above
      the target and the target's bottom is on screen; otherwise the offset to
      scroll to, which puts the target `CardSpace` below the viewport top
      unless that would mean scrolling above the document. */
  function ScrollToElementWithCard(c: ClientRect, innerHeight: int, scrollY: int): (target: Option<int>)
    ensures target.None? <==> c.top > CardSpace && c.Bottom() < innerHeight
    ensures target.Some? ==> target.value >= 0
    ensures target.Some? && target.value > 0 ==> c.top + scrollY - target.value == CardSpace
    ensures target.Some? && target.value == 0 ==> c.top + scrollY <= CardSpace
  {
    var elementTopRelativeToPage := c.top + scrollY;
    var idealScrollPosition := elementTopRelativeToPage - (EstimatedCardHeight + CardOffset) - TopMargin;
    var isCardVisible := c.top > EstimatedCardHeight + CardOffset + TopMargin;
    var isElementVisible := c.Bottom() < innerHeight;
    if isCardVisible && isElementVisible then None
    else Some(Max(0, idealScrollPosition))
  }

  /** Recomputing right after the scroll, with no other change, asks for the
      same offset again: the guard's strict `>` never accepts the position the
      scroll produces, so every later trigger repeats the scroll, and it never
      moves the page further. */
  lemma RescrollIsStable(c: ClientRect, innerHeight: int, scrollY: int)
    requires ScrollToElementWithCard(c, innerHeight, scrollY).Some?
    ensures var t := ScrollToElementWithCard(c, innerHeight, scrollY).value;
      var after := c.(top := c.top + scrollY - t);
      ScrollToElementWithCard(after, innerHeight, t) == Some(t)
  {
  }

  /** What an effect run produces: the new pointer position (when updated) and a scroll (when issued). */
  datatype Refresh = Refresh(pointer: Option<Rect>, scrollTo: Option<int>)

  /** The current-step effect: when the tour is visible and the current step's
      target resolves, the pointer moves to its document rectangle and, when the
      target is out of view by either test, `scrollToElementWithCard` runs. */
  function StepEffect(visible: bool, steps: Option<seq<Step>>, current: int, dom: Dom,
                      s: ScrollState, isInView: bool, innerHeight: int): (r: Refresh)
    ensures r.pointer.Some? <==> visible && StepAt(steps, current).Some? && StepAt(steps, current).value.selector in dom
    ensures r.pointer.Some? ==> r.pointer.value == DocumentRect(dom[StepAt(steps, current).value.selector], s)
    ensures r.pointer.None? ==> r.scrollTo.None?
    ensures r.pointer.Some? ==> var c := dom[StepAt(steps, current).value.selector];
      r.scrollTo == (if !isInView || !InViewportWithOffset(c, innerHeight)
                     then ScrollToElementWithCard(c, innerHeight, s.windowY) else None)
  {
    if !visible then Refresh(None, None)
    else match StepAt(steps, current)
      case None => Refresh(None, None)
      case Some(step) =>
        match QuerySelector(dom, step.selector)
        case None => Refresh(None, None)
        case Some(c) =>
          var scroll := if !isInView || !InViewportWithOffset(c, innerHeight)
                        then ScrollToElementWithCard(c, innerHeight, s.windowY) else None;
          Refresh(Some(DocumentRect(c, s)), scroll)
  }

  /** A target already well inside the viewport, with room for the card above
      it, causes no scroll whatever the intersection signal says. */
  lemma WellPlacedTargetNoScroll(visible: bool, steps: Option<seq<Step>>, current: int, dom: Dom,
                                 s: ScrollState, isInView: bool, innerHeight: int)
    requires StepAt(steps, current).Some? && StepAt(steps, current).value.selector in dom
    requires var c := dom[StepAt(steps, current).value.selector];
      c.top > CardSpace && c.Bottom() < innerHeight
    ensures StepEffect(visible, steps, current, dom, s, isInView, innerHeight).scrollTo.None?
  {
  }

  /** The watcher effect: a remembered target that has left the view is scrolled to. */
  function OutOfViewScroll(target: Option<ClientRect>, isInView: bool, visible: bool,
                           innerHeight: int, scrollY: int): (r: Option<int>)
    ensures r.Some? ==> target.Some? && !isInView && visible
    ensures target.Some? && !isInView && visible ==> r == ScrollToElementWithCard(target.value, innerHeight, scrollY)
  {
    if target.Some? && !isInView && visible then ScrollToElementWithCard(target.value, innerHeight, scrollY)
    else None
  }

  /** With the intersection signal constantly false (the observed element is
      never attached), both out-of-view tests collapse: every step effect that
      moves the pointer also runs `scrollToElementWithCard`, whatever the ±20 px
      test says, and a remembered target is scrolled to whenever the tour is visible. */
  lemma NeverInViewAlwaysScrolls(visible: bool, steps: Option<seq<Step>>, current: int, dom: Dom,
                                 s: ScrollState, innerHeight: int, target: Option<ClientRect>)
    ensures var r := StepEffect(visible, steps, current, dom, s, false, innerHeight);
      r.pointer.Some? ==>
        r.scrollTo == ScrollToElementWithCard(dom[StepAt(steps, current).value.selector], innerHeight, s.windowY)
    ensures target.Some? && visible ==>
      OutOfViewScroll(target, false, visible, innerHeight, s.windowY)
        == ScrollToElementWithCard(target.value, innerHeight, s.windowY)
  {
  }

  /** The resize handler: the listener is registered only while the tour is
      visible, and then the pointer follows the current step's target when it resolves. */
  function ResizePointer(visible: bool, steps: Option<seq<Step>>, current: int, dom: Dom,
                         s: ScrollState): (r: Option<Rect>)
    ensures !visible ==> r.None?
    ensures r.Some? <==> visible && StepAt(steps, current).Some? && StepAt(steps, current).value.selector in dom
    ensures r.Some? ==> r.value == DocumentRect(dom[StepAt(steps, current).value.selector], s)
  {
    if !visible then None
    else match StepAt(steps, current)
      case None => None
      case Some(step) =>
        match QuerySelector(dom, step.selector)
        case None => None
        case Some(c) => Some(DocumentRect(c, s))
  }

  /** A resize moves the pointer exactly where the current-step effect puts it,
      whatever the intersection signal and the viewport height. */
  lemma ResizeAgreesWithStepEffect(visible: bool, steps: Option<seq<Step>>, current: int, dom: Dom,
                                   s: ScrollState, isInView: bool, innerHeight: int)
    ensures ResizePointer(visible, steps, current, dom, s)
      == StepEffect(visible, steps, current, dom, s, isInView, innerHeight).pointer
  {
  }

  /** `scrollToElement(i)` after a step change: scrolls only when the target's
      top is off screen, and moves the pointer to the target either way. */
  function ScrollToStep(steps: seq<Step>, index: int, dom: Dom, s: ScrollState, innerHeight: int): (r: Refresh)
    requires 0 <= index < |steps|
    ensures r.pointer.Some? <==> steps[index].selector in dom
    ensures r.pointer.Some? ==> r.pointer.value == DocumentRect(dom[steps[index].selector], s)
    ensures r.scrollTo.Some? ==> r.pointer.Some? && !TopInViewport(dom[steps[index].selector], innerHeight)
    ensures r.pointer.Some? && !TopInViewport(dom[steps[index].selector], innerHeight) ==>
      r.scrollTo == ScrollToElementWithCard(dom[steps[index].selector], innerHeight, s.windowY)
  {
    match QuerySelector(dom, steps[index].selector)
    case None => Refresh(None, None)
    case Some(c) =>
      var scroll := if !TopInViewport(c, innerHeight) then ScrollToElementWithCard(c, innerHeight, s.windowY) else None;
      Refresh(Some(DocumentRect(c, s)), scroll)
  }

  /** The full-rectangle test is at least as strict as the top-only one for
      an element of non-negative height. */
  lemma InViewportImpliesTopInViewport(c: ClientRect, innerHeight: int)
    requires c.height >= 0
    ensures InViewportWithOffset(c, innerHeight) ==> TopInViewport(c, innerHeight)
  {
  }

  // ---------------------------------------------------------------------------
  // Scroll to top when the tour closes

  /** One run of the close effect: whether to scroll to the top, and the
      visibility remembered for the next run. */
  datatype CloseEdge = CloseEdge(scrollToTop: bool, remembered: bool)

  function CloseEffect(previous: bool, visible: bool, scrollToTop: bool): (r: CloseEdge)
    ensures r.scrollToTop <==> previous && !visible && scrollToTop
    ensures r.remembered == visible
  {
    CloseEdge(previous && !visible && scrollToTop, visible)
  }

  /** One render's inputs to the close effect. */
  datatype Frame = Frame(visible: bool, scrollToTop: bool)

  /** The scroll-to-top decisions over a sequence of renders, starting from a
      remembered visibility. */
  function CloseScrolls(remembered: bool, renders: seq<Frame>): (r: seq<bool>)
    ensures |r| == |renders|
    decreases |renders|
  {
    if |renders| == 0 then []
    else
      var step := CloseEffect(remembered, renders[0].visible, renders[0].scrollToTop);
      [step.scrollToTop] + CloseScrolls(step.remembered, renders[1..])
  }

  /** The visibility seen before render `i`. */
  function Before(remembered: bool, renders: seq<Frame>, i: int): bool
    requires 0 <= i < |renders|
  {
    if i == 0 then remembered else renders[i - 1].visible
  }

  /** The page scrolls to the top exactly at the renders where the overlay goes
      from visible to hidden with `scrollToTop` set. */
  lemma {:induction false} ScrollsExactlyOnClose(remembered: bool, renders: seq<Frame>, i: int)
    requires 0 <= i < |renders|
    ensures CloseScrolls(remembered, renders)[i] <==>
      Before(remembered, renders, i) && !renders[i].visible && renders[i].scrollToTop
    decreases i
  {
    if i > 0 {
      ScrollsExactlyOnClose(renders[0].visible, renders[1..], i - 1);
      assert renders[1..][i - 1] == renders[i];
      if i > 1 { assert renders[1..][i - 2] == renders[i - 1]; }
    }
  }

  // ---------------------------------------------------------------------------
  // Spotlight and card options

  const DefaultPointerPadding: int := 30
  const DefaultPointerRadius: int := 28
  const DefaultPlacement: string := "top"

  /** The spotlight drawn around the target, in real coordinates (`pad / 2` may be fractional). */
  datatype Spot = Spot(x: real, y: real, width: real, height: real)

  function PointerPadding(step: Option<Step>): (r: int)
    ensures step.Some? && step.value.pointerPadding.Some? ==> r == step.value.pointerPadding.value
    ensures step.None? || step.value.pointerPadding.None? ==> r == DefaultPointerPadding
  {
    if step.Some? then step.value.pointerPadding.GetOr(DefaultPointerPadding) else DefaultPointerPadding
  }

  function PointerRadius(step: Option<Step>): (r: int)
    ensures step.Some? && step.value.pointerRadius.Some? ==> r == step.value.pointerRadius.value
    ensures step.None? || step.value.pointerRadius.None? ==> r == DefaultPointerRadius
  {
    if step.Some? then step.value.pointerRadius.GetOr(DefaultPointerRadius) else DefaultPointerRadius
  }

  function PlacementOf(step: Option<Step>): (r: string)
    ensures step.Some? && step.value.side.Some? ==> r == step.value.side.value
    ensures step.None? || step.value.side.None? ==> r == DefaultPlacement
  {
    if step.Some? then step.value.side.GetOr(DefaultPlacement) else DefaultPlacement
  }

  /** The target grown by `pad` in width and height and moved up-left by `pad / 2`. */
  function Spotlight(p: Rect, pad: int): (r: Spot)
    ensures r.width - p.width as real == pad as real && r.height - p.height as real == pad as real
  {
    var half := pad as real / 2.0;
    Spot(p.x as real - half, p.y as real - half, p.width as real + pad as real, p.height as real + pad as real)
  }

  predicate Contains(outer: Spot, p: Rect)
  {
    outer.x <= p.x as real && outer.y <= p.y as real
    && p.x as real + p.width as real <= outer.x + outer.width
    && p.y as real + p.height as real <= outer.y + outer.height
  }

  /** The spotlight is centred on the target, and contains it when the padding is not negative. */
  lemma SpotlightCentredAndContains(p: Rect, pad: int)
    ensures var r := Spotlight(p, pad);
      && r.x + r.width / 2.0 == p.x as real + p.width as real / 2.0
      && r.y + r.height / 2.0 == p.y as real + p.height as real / 2.0
      && (pad >= 0 ==> Contains(r, p))
  {
  }
}

=== FILE: steps.dfy ===
/** The shapes of tours and steps, and the DOM lookups the tour performs.
    A document is modelled as the rectangles its selectors currently resolve to. */
module Steps {
  import opened Common
  import opened Geometry

  /** One tour step; optional options are `None` when the step leaves them out. */
  datatype Step = Step(
    title: string,
    selector: string,
    side: Option<string>,
    showControls: Option<bool>,
    pointerPadding: Option<int>,
    pointerRadius: Option<int>,
    nextRoute: Option<string>,
    prevRoute: Option<string>)

  datatype Tour = Tour(name: string, steps: seq<Step>)

  /** `document.querySelector(selector)` followed by `getBoundingClientRect()`:
      the selectors present in the map resolve to an element with that rectangle. */
  type Dom = map<string, ClientRect>

  function QuerySelector(dom: Dom, selector: string): (r: Option<ClientRect>)
    ensures r.Some? <==> selector in dom
    ensures r.Some? ==> r.value == dom[selector]
  {
    if selector in dom then Some(dom[selector]) else None
  }

  /** Index `k` holds the first tour named `current`. */
  predicate FirstMatch(tours: seq<Tour>, current: Option<string>, k: int)
  {
    0 <= k < |tours| && Some(tours[k].name) == current
    && forall j :: 0 <= j < k ==> Some(tours[j].name) != current
  }

  /** `tours.find(t => t.tour === current)?.steps`: the steps of the first tour
      with the current name; no tour matches when there is no current tour. */
  function FindTourSteps(tours: seq<Tour>, current: Option<string>): (r: Option<seq<Step>>)
    ensures r.Some? ==> exists k :: FirstMatch(tours, current, k) && r.value == tours[k].steps
    ensures r.None? ==> forall k :: 0 <= k < |tours| ==> Some(tours[k].name) != current
  {
    if |tours| == 0 then None
    else if Some(tours[0].name) == current then Some(tours[0].steps)
    else
      var rest := FindTourSteps(tours[1..], current);
      if rest.Some? then
        ghost var k :| FirstMatch(tours[1..], current, k) && rest.value == tours[1..][k].steps;
        assert Some(tours[k + 1].name) == current;
        assert FirstMatch(tours, current, k + 1) by {
          forall j | 0 <= j < k + 1 ensures Some(tours[j].name) != current {
            if j > 0 { assert tours[j] == tours[1..][j - 1]; }
          }
        }
        rest
      else
        assert forall k :: 1 <= k < |tours| ==> tours[k] == tours[1..][k - 1];
        rest
  }

  /** `steps?.[i]`: the step at index `i`, absent when there are no steps or
      the index is outside the list (negative indices included). */
  function StepAt(steps: Option<seq<Step>>, i: int): (r: Option<Step>)
    ensures r.Some? <==> steps.Some? && 0 <= i < |steps.value|
    ensures r.Some? ==> r.value == steps.value[i]
  {
    if steps.Some? && 0 <= i < |steps.value| then Some(steps.value[i]) else None
  }
}

=== FILE: strings.dfy ===
/** The three string operations the side corrector depends on:
    `startsWith`, `includes` and `replace` with a string pattern, which
    replaces only the FIRST occurrence. */
module Strings {
  import opened Common

  predicate StartsWith(s: string, prefix: string)
  {
    |prefix| <= |s| && s[..|prefix|] == prefix
  }

  /** `pattern` occurs in `s` starting at index `i`. */
  predicate OccursAt(s: string, pattern: string, i: int)
  {
    0 <= i && i + |pattern| <= |s| && s[i..i + |pattern|] == pattern
  }

  /** The first index at or after `from` where `pattern` occurs. */
  function IndexFrom(s: string, pattern: string, from: nat): (r: Option<nat>)
    ensures r.Some? ==> from <= r.value && OccursAt(s, pattern, r.value)
    ensures r.Some? ==> forall j :: from <= j < r.value ==> !OccursAt(s, pattern, j)
    ensures r.None? ==> forall j :: from <= j ==> !OccursAt(s, pattern, j)
    decreases |s| - from
  {
    if from + |pattern| > |s| then None
    else if s[from..from + |pattern|] == pattern then Some(from)
    else IndexFrom(s, pattern, from + 1)
  }

  /** `s.indexOf(pattern)`, with `None` for -1. */
  function IndexOf(s: string, pattern: string): (r: Option<nat>)
    ensures r.Some? ==> OccursAt(s, pattern, r.value)
    ensures r.Some? ==> forall j :: 0 <= j < r.value ==> !OccursAt(s, pattern, j)
    ensures r.None? ==> forall j :: !OccursAt(s, pattern, j)
  {
    IndexFrom(s, pattern, 0)
  }

  /** `s.includes(pattern)`. */
  predicate Includes(s: string, pattern: string)
  {
    IndexOf(s, pattern).Some?
  }

  /** `s.replace(pattern, replacement)` for a string pattern without `$`
      substitutions: only the first occurrence is replaced. */
  function ReplaceFirst(s: string, pattern: string, replacement: string): (r: string)
    ensures !Includes(s, pattern) ==> r == s
    ensures Includes(s, pattern) ==> |r| == |s| - |pattern| + |replacement|
    ensures Includes(s, pattern) ==>
      var i := IndexOf(s, pattern).value;
      && OccursAt(s, pattern, i)
      && (forall j :: 0 <= j < i ==> !OccursAt(s, pattern, j))
      && r[..i] == s[..i]
      && r[i..i + |replacement|] == replacement
      && r[i + |replacement|..] == s[i + |pattern|..]
  {
    match IndexOf(s, pattern)
    case None => s
    case Some(i) => s[..i] + replacement + s[i + |pattern|..]
  }

  /** `includes` holds exactly when the pattern occurs somewhere. */
  lemma IncludesIffOccurs(s: string, pattern: string)
    ensures Includes(s, pattern) <==> exists i :: OccursAt(s, pattern, i)
  {
    if Includes(s, pattern) {
      assert OccursAt(s, pattern, IndexOf(s, pattern).value);
    }
  }

  /** A string that starts with a non-empty prefix starts with its first character. */
  lemma StartsWithFirstChar(s: string, prefix: string)
    requires |prefix| > 0
    ensures StartsWith(s, prefix) ==> |s| > 0 && s[0] == prefix[0]
  {
    if StartsWith(s, prefix) {
      assert s[..|prefix|][0] == s[0];
    }
  }

  /** A string that starts with `pattern` includes it, first at index 0. */
  lemma StartsWithIndexZero(s: string, pattern: string)
    requires StartsWith(s, pattern)
    ensures IndexOf(s, pattern) == Some(0)
  {
    assert OccursAt(s, pattern, 0);
  }

  /** Replacing a leading pattern keeps everything after it. */
  lemma ReplaceLeading(s: string, pattern: string, replacement: string)
    requires StartsWith(s, pattern)
    ensures ReplaceFirst(s, pattern, replacement) == replacement + s[|pattern|..]
  {
    StartsWithIndexZero(s, pattern);
  }

  /** Every occurrence of a pattern puts its last character into `s`, so a
      string lacking that character does not include the pattern. */
  lemma AbsentLastChar(s: string, pattern: string)
    requires |pattern| > 0 && pattern[|pattern| - 1] !in s
    ensures !Includes(s, pattern)
  {
  }

  /** An occurrence is the first one when the pattern's last character does
      not appear before the occurrence ends. */
  lemma FirstOccurrence(s: string, pattern: string, i: nat)
    requires |pattern| > 0 && OccursAt(s, pattern, i)
    requires pattern[|pattern| - 1] !in s[..i + |pattern| - 1]
    ensures IndexOf(s, pattern) == Some(i)
  {
  }

  /** Replacing a trailing pattern keeps everything before it, provided the
      pattern's last character appears nowhere earlier. */
  lemma ReplaceTrailing(prefix: string, pattern: string, replacement: string)
    requires |pattern| > 0
    requires pattern[|pattern| - 1] !in prefix + pattern[..|pattern| - 1]
    ensures ReplaceFirst(prefix + pattern, pattern, replacement) == prefix + replacement
  {
    var s := prefix + pattern;
    assert s[|prefix|..|prefix| + |pattern|] == pattern;
    assert s[..|prefix| + |pattern| - 1] == prefix + pattern[..|pattern| - 1];
    FirstOccurrence(s, pattern, |prefix|);
    assert s[..|prefix|] == prefix;
    assert s[|prefix| + |pattern|..] == [];
  }
}

=== FILE: tour_state.dfy ===
/** The shared tour state held by the provider: the active tour, the current
    step index and whether the overlay is visible, changed only through
    `startOnboarding`, `closeOnboarding` and `setCurrentStep`. */
module TourState {
  import opened Common

  datatype State = State(tour: Option<string>, step: int, visible: bool)

  /** No tour, step 0, hidden. */
  const Initial: State := State(None, 0, false)

  /** Before any call there is no tour, the step is 0 and the overlay is hidden. */
  lemma InitialIsClosed()
    ensures Initial.tour.None? && Initial.step == 0 && !Initial.visible
    ensures Consistent(Initial)
  {
  }

  /** `startOnboarding(name)`. */
  function Start(s: State, name: string): (r: State)
    ensures r.tour == Some(name) && r.step == 0 && r.visible
  {
    State(Some(name), 0, true)
  }

  /** `closeOnboarding()`: hides the overlay and forgets the tour; the step index stays. */
  function Close(s: State): (r: State)
    ensures !r.visible && r.tour.None?
    ensures r.step == s.step
  {
    s.(visible := false, tour := None)
  }

  /** The update `setCurrentStep` performs, now or when its timer fires:
      shows the given step of the current tour, with no bounds check. */
  function ShowStep(s: State, step: int): (r: State)
    ensures r.step == step && r.visible
    ensures r.tour == s.tour
  {
    s.(step := step, visible := true)
  }

  /** A `setTimeout` the delayed variant schedules. */
  datatype Timer = Timer(delay: int, step: int)

  /** The state right after the call and the timer it left pending, if any. */
  datatype StepRequest = StepRequest(state: State, pending: Option<Timer>)

  /** A delay counts only when truthy: absent and 0 both mean "now". */
  predicate Delayed(delay: Option<int>)
  {
    delay.Some? && delay.value != 0
  }

  /** `setCurrentStep(step, delay)`. */
  function SetCurrentStep(s: State, step: int, delay: Option<int>): (r: StepRequest)
    ensures !Delayed(delay) ==> r.pending.None? && r.state.step == step && r.state.visible && r.state.tour == s.tour
    ensures Delayed(delay) ==> r.state == s && r.pending == Some(Timer(delay.value, step))
  {
    if Delayed(delay) then StepRequest(s, Some(Timer(delay.value, step)))
    else StepRequest(ShowStep(s, step), None)
  }

  /** A pending timer fires against whatever the state is by then. */
  function Fire(s: State, t: Timer): (r: State)
    ensures r.step == t.step && r.visible && r.tour == s.tour
  {
    ShowStep(s, t.step)
  }

  /** The delayed variant ends in the state the immediate one produces, from
      whatever state is current when its timer fires. */
  lemma DelayedMatchesImmediate(s: State, now: State, step: int, delay: int)
    requires delay != 0
    ensures var req := SetCurrentStep(s, step, Some(delay));
      && req.state == s
      && req.pending.Some?
      && Fire(now, req.pending.value) == SetCurrentStep(now, step, None).state
  {
  }

  /** The calls that change the state, and a pending timer firing. */
  datatype Event = StartTour(name: string) | CloseTour | SetStep(step: int, delay: Option<int>) | TimerFired(timer: Timer)

  function Apply(s: State, e: Event): State
  {
    match e
    case StartTour(name) => Start(s, name)
    case CloseTour => Close(s)
    case SetStep(step, delay) => SetCurrentStep(s, step, delay).state
    case TimerFired(t) => Fire(s, t)
  }

  function Run(s: State, events: seq<Event>): State
    decreases |events|
  {
    if |events| == 0 then s else Run(Apply(s, events[0]), events[1..])
  }

  /** Whenever a tour is active the overlay is visible. */
  predicate Consistent(s: State)
  {
    s.tour.Some? ==> s.visible
  }

  /** Every transition keeps the state consistent. */
  lemma ApplyKeepsConsistent(s: State, e: Event)
    requires Consistent(s)
    ensures Consistent(Apply(s, e))
  {
  }

  /** Every state reached from the initial state is consistent: an active tour
      is never hidden. (A visible overlay with no tour is reachable, by setting
      a step after closing.) */
  lemma {:induction false} ReachableConsistent(s: State, events: seq<Event>)
    requires Consistent(s)
    ensures Consistent(Run(s, events))
    decreases |events|
  {
    if |events| > 0 {
      ApplyKeepsConsistent(s, events[0]);
      ReachableConsistent(Apply(s, events[0]), events[1..]);
    }
  }

  /** Closing then setting a step shows the overlay with no active tour. */
  lemma VisibleWithoutTour(name: string, step: int)
    ensures var s := Run(Initial, [StartTour(name), CloseTour, SetStep(step, None)]);
      s.visible && s.tour.None? && s.step == step
  {
    var events := [StartTour(name), CloseTour, SetStep(step, None)];
    var s1 := Apply(Initial, StartTour(name));
    var s2 := Apply(s1, CloseTour);
    var s3 := Apply(s2, SetStep(step, None));
    assert events[1..] == [CloseTour, SetStep(step, None)];
    assert events[1..][1..] == [SetStep(step, None)];
    assert Run(s3, []) == s3;
    assert Run(s2, [SetStep(step, None)]) == s3;
    assert Run(s1, events[1..]) == s3;
  }

  const MissingProvider: string := "useOnboarding must be used within an OnboardingProvider"

  /** `useOnboarding()`: the provider's value, or the error thrown outside a provider. */
  function UseOnboarding(provided: Option<State>): (r: Result<State, string>)
    ensures r.Err? <==> provided.None?
    ensures r.Err? ==> r.error == MissingProvider
    ensures r.Ok? ==> r.value == provided.value
  {
    match provided
    case None => Err(MissingProvider)
    case Some(s) => Ok(s)
  }
}
